=== FILE: README.md ===
# Index-based include content provider, modelled in Dafny

This project models the core of `CustomIndexBasedFileContentProvider`, the
component that answers "what is the content of included file X under the
current macro state?" from a persistent index rather than by re-reading and
re-preprocessing the header. It also models `AttributeUtil`, a small helper for
matching attribute names on AST nodes.

Indexed file variants live in an arena `map<VariantId, Variant>`. Each variant
has a location, a linkage, a pragma-once flag, a significant-macros signature,
an interleaved macro/include list and an ordered using-directive list. The
index store is the arena plus the order in which the store lists variants. An
include edge names the variant recorded for it; `Resolve` returns that variant
when the index holds it and `null` otherwise.

The collaborators are fields of function type: the macro dictionary's
`satisfies`, the path resolver, the fallback reader, `Path.lastSegment` and the
optional on-demand indexer task. That indexer task is the only source of
`DependsOnOutdatedFileException`, so the model has an oracle for it.

The traversal `collectFileContent` is the total mutual recursion
`Collect`/`Visit`/`CollectList` in module `ContentWalk`. It terminates on the
number of variants not in the recursion guard. Its outcome is explicit:
`Continue` (the method returns `false`), `BoundaryReached` (it returns `true`)
or `Outdated` (the exception). The provider's session pragma-once map is passed
in and returned by every operation, so commit and rollback are visible in the
contracts. Its keys are `Option<Loc>`, because a Java `HashMap` stores the
`null` that `resolveIncludeFile` returns for an unresolvable path. As a result,
every unresolvable path reports to, and is queried from, one shared entry.

Details of the code that the model follows:
- A call returns early when its location is already in the local pending map
  (CustomIndexBasedFileContentProvider.java:163). The session map is consulted
  only when the guard is non-`null` (line 168).
- The top-level resolution passes a `null` guard (line 103), so its own file is
  walked even when the session map holds its location. The gap path passes an
  empty set (line 238), so there the context file is checked against the
  session map.
- Gap reconstruction catches only `CoreException` (line 245). A stale-data
  exception reaches the caller, which is `GapDependsOnOutdated` here.

## Model

| member | source | states |
|---|---|---|
| IndexModel.GetFiles | src/main/java/change/CustomIndexBasedFileContentProvider.java:140 | the stored variants of a location are exactly the listed indexed variants with that location and linkage |
| IndexModel.GetFilesStoreOrder | src/main/java/change/CustomIndexBasedFileContentProvider.java:140 | the stored variants of a location taken from a prefix of the store's listing are a prefix of its full answer, so the store order is kept |
| ContentProvider.FirstSatisfying | src/main/java/change/CustomIndexBasedFileContentProvider.java:140-144 | returns the first variant whose signature the dictionary satisfies, with every earlier one unsatisfied, and `null` exactly when none is satisfied |
| ContentProvider.SelectIndexFile | src/main/java/change/CustomIndexBasedFileContentProvider.java:136-145 | delegates to the related task when there is one; otherwise picks the first satisfied stored variant of the location, in store order, or `null` |
| ContentWalk.Advance | src/main/java/change/CustomIndexBasedFileContentProvider.java:200-204 | flushes exactly the maximal run of pending using directives whose point of declaration is at most the include's name offset |
| WalkOrder.AdvanceFlushesAllEarlier | src/main/java/change/CustomIndexBasedFileContentProvider.java:200-204 | when a file's using directives are sorted by point of declaration, every directive left unflushed at an include is declared after its name offset |
| ContentWalk.Collect | src/main/java/change/CustomIndexBasedFileContentProvider.java:155-175 | returns `true` (BoundaryReached) and appends nothing at the stop-at file; contributes nothing when the location is pending; otherwise a pragma-once file claims its location first, and a nested file whose location is in the session map, or a file already on the guard, is skipped with that claim as the only change; an entered file is appended first; the guard is restored on a `false` return; the lists only grow; stale data only comes from a task |
| ContentWalk.Visit | src/main/java/change/CustomIndexBasedFileContentProvider.java:176-216 | an entered file whose content is not stale is appended to `files` ahead of all nested content; on a normal end the guard is back to its entry value; stale content only comes from a related task |
| ContentWalk.CollectList | src/main/java/change/CustomIndexBasedFileContentProvider.java:192-214 | the walk of the interleaved list only appends to the outputs, restores the guard on `false`, and cannot report the boundary without a stop-at file |
| WalkGuard.CollectSkipsGuarded | src/main/java/change/CustomIndexBasedFileContentProvider.java:168-175 | a call never appends a file already in the guard set it is given, and a file it enters is not appended again by any nested call |
| WalkGuard.VisitSkipsGuarded | src/main/java/change/CustomIndexBasedFileContentProvider.java:174-216 | while an entered file's list is walked the file is in the guard, so nothing below it appends it or any file already on the active chain |
| WalkGuard.ListSkipsGuarded | src/main/java/change/CustomIndexBasedFileContentProvider.java:192-209 | the walk of an interleaved list, nested calls included, never appends a file of the guard set |
| WalkOnce.CollectAppendsUnclaimed | src/main/java/change/CustomIndexBasedFileContentProvider.java:162-175 | a call appends nothing whose location is in the pending map it is given; the entered file comes first and, below a non-`null` guard, its location is not in the session map; every later file's location is in neither |
| WalkOnce.VisitAppendsUnclaimed | src/main/java/change/CustomIndexBasedFileContentProvider.java:176-216 | after an entered file, every file its list walk appends has a location neither pending at entry nor in the session map |
| WalkOnce.ListAppendsUnclaimed | src/main/java/change/CustomIndexBasedFileContentProvider.java:192-209 | every file the walk of an interleaved list appends, nested calls included, has a location neither pending at its start nor in the session map |
| WalkClaims.CollectClaimsMatch | src/main/java/change/CustomIndexBasedFileContentProvider.java:162-175 | unless stale data ends it, a call leaves a pending map in which every appended pragma-once file is recorded under its own location and every entry belongs to an appended file or to a location the session map already holds |
| WalkClaims.VisitClaimsMatch | src/main/java/change/CustomIndexBasedFileContentProvider.java:176-216 | once an entered file that claimed its location is appended, the walk of its list keeps the pending map matched to the appended files and the session map |
| WalkClaims.ListClaimsMatch | src/main/java/change/CustomIndexBasedFileContentProvider.java:192-209 | the walk of an interleaved list, nested calls included, claims no location beyond the appended pragma-once files and the session-held locations of skipped includes |
| WalkInvariants.CollectKeepsWellFormed | src/main/java/change/CustomIndexBasedFileContentProvider.java:162-191 | every call preserves the invariant: pragma-once files have pending locations, no pragma-once location is appended twice, preloaded = first visits of non-pragma-once files; the stop-at file is never appended |
| WalkInvariants.VisitKeepsWellFormed | src/main/java/change/CustomIndexBasedFileContentProvider.java:174-216 | entering a file with a fresh pragma-once slot preserves the accumulator invariant and never appends the stop-at file |
| WalkInvariants.CollectListKeepsWellFormed | src/main/java/change/CustomIndexBasedFileContentProvider.java:192-214 | the walk of an interleaved list preserves the accumulator invariant |
| WalkInvariants.AppendKeepsWellFormed | src/main/java/change/CustomIndexBasedFileContentProvider.java:188-191 | appending a file, and adding it to the preloaded set when it lacks pragma-once semantics, keeps the invariant |
| WalkInvariants.FreshWalkInvariants | src/main/java/change/CustomIndexBasedFileContentProvider.java:163-191 | from empty accumulators: each pragma-once location is appended at most once; preloaded holds exactly the visited non-pragma-once files, without duplicates, in first-visit order; the stop-at file is never in `files` |
| WalkInvariants.PreLoadedIsNonOnceFiles | src/main/java/change/CustomIndexBasedFileContentProvider.java:189-191 | under the invariant, the preloaded list has no duplicates and holds exactly the files lacking pragma-once semantics |
| WalkOrder.UsingChunksCover | src/main/java/change/CustomIndexBasedFileContentProvider.java:192-214 | the flushed chunks of a file's using directives concatenate to all of them, each once, in original order; there is one chunk per resolved include plus the trailing one |
| WalkOrder.MacroChunksCover | src/main/java/change/CustomIndexBasedFileContentProvider.java:193-196 | a file's macro chunks concatenate to all its macros in source order; unresolved includes do not cut a chunk |
| WalkOrder.UsingChunksRespectOffsets | src/main/java/change/CustomIndexBasedFileContentProvider.java:198-207 | for directives sorted by point of declaration, the chunk emitted before the i-th resolved include's nested output holds only directives declared at or before its name offset, and every later chunk only directives declared after it |
| WalkOrder.CollectListInterleaves | src/main/java/change/CustomIndexBasedFileContentProvider.java:192-214 | when the walk of a list returns `false`, the using directives it appends are exactly chunk 0, the output of the nested call for the first resolved include, chunk 1, and so on, and the same holds for its macros |
| WalkOrder.CollectInterleaves | src/main/java/change/CustomIndexBasedFileContentProvider.java:188-214 | when a call enters its file and returns `false`, the nested call for the i-th resolved include contributes exactly what sits between the file's own chunk i and chunk i + 1; the chunks hold every own using directive once, in order, and every own macro in source order |
| WalkOrder.CollectOrdersUsingDirectives | src/main/java/change/CustomIndexBasedFileContentProvider.java:198-207 | for a file whose directives are sorted by point of declaration, the directives emitted before the i-th nested call's output are declared at or before that include's name offset, and those emitted after it are declared after it |
| WalkStop.CollectStopIsPrefix | src/main/java/change/CustomIndexBasedFileContentProvider.java:159-160 | a call toward a stop-at file that does not report the boundary equals the call without one; one that reports it keeps every list a prefix of the full call's, and the full call appends the target right after the kept files or, ending normally, leaves the target held out (guarded, pending or in the session) for everything after it |
| WalkStop.CollectListStopIsPrefix | src/main/java/change/CustomIndexBasedFileContentProvider.java:192-209 | the same prefix relation for the walk of an interleaved list: a nested call that reports the boundary ends the list at once, and the full list walk keeps the stopped lists as prefixes with the target right after the kept files |
| WalkStop.StopAtIsPrefixOfFullWalk | src/main/java/change/CustomIndexBasedFileContentProvider.java:159-160 | from empty accumulators, the stopped walk's files, macros, using directives and preloaded list are prefixes of the full walk's lists and its pending keys a subset; the target is not among the stopped files, and if the full walk appends it, it does so right after them, so the stopped files are exactly everything before it |
| ContentProvider.ResetForTranslationUnit | src/main/java/change/CustomIndexBasedFileContentProvider.java:60-63 | the session map is emptied |
| ContentProvider.ReportPragmaOnceSemantics | src/main/java/change/CustomIndexBasedFileContentProvider.java:69-71 | the nomination is stored under the resolved location, which may be `null`, and every other entry is unchanged |
| ContentProvider.Merge | src/main/java/change/CustomIndexBasedFileContentProvider.java:105 | `putAll`: the pending entries override, and all other session entries stay |
| ContentProvider.ToFileVersions | src/main/java/change/CustomIndexBasedFileContentProvider.java:251-258 | one version per preloaded variant, in order, carrying its AST path and significant macros |
| ContentProvider.FallbackContent | src/main/java/change/CustomIndexBasedFileContentProvider.java:148-153 | `null` without a fallback reader or when the reader yields nothing; otherwise exactly the reader's content, tagged with whether the path is a source file |
| ContentProvider.GetContentForInclusion | src/main/java/change/CustomIndexBasedFileContentProvider.java:87-126 | `null` for an unresolvable path; the session map changes only on an index hit, and then by merging the walk's pending map; a hit yields the walk's content, with the selected file first; without a hit the session is unchanged and the result is `SKIP_FILE` for a file over a positive size limit, else the fallback reader's content |
| ContentProvider.GetContentForContextToHeaderGap | src/main/java/change/CustomIndexBasedFileContentProvider.java:220-249 | no gap when unset, when either end is `null` or context equals target, or when the context's location is already in the session; for a valid pair, a walk that reaches the target gives content under `"__gap__"` with the walk's files, macros, using directives and preloaded versions and the pending map merged, a walk that never reaches it gives no gap, and stale data gives the stale-data failure; the session is unchanged unless a gap is returned |
| ProviderProperties.ReportThenQuery | src/main/java/change/CustomIndexBasedFileContentProvider.java:69-79 | a query after a report returns the reported nomination for any path resolving to the same key, and the old answer for any other path |
| ProviderProperties.ShouldIndexAllHeaderVersionsBySegment | src/main/java/change/CustomIndexBasedFileContentProvider.java:287-294 | two file names with the same last segment get the same answer |
| ProviderProperties.ListedHeaderInAnyDirectory | src/main/java/change/CustomIndexBasedFileContentProvider.java:287-294 | a header listed by its plain name has all versions indexed, bare or under any directory |
| ProviderProperties.UnlistedHeaderFollowsFlag | src/main/java/change/CustomIndexBasedFileContentProvider.java:287-294 | a file whose plain name is not listed has all versions indexed exactly when the global flag is set |
| ProviderProperties.ResetForgetsEverything | src/main/java/change/CustomIndexBasedFileContentProvider.java:60-63 | after a reset no path is reported as included with pragma-once semantics |
| ProviderProperties.InclusionContentInvariants | src/main/java/change/CustomIndexBasedFileContentProvider.java:98-106 | an index hit's content has distinct pragma-once locations and duplicate-free preloaded versions of exactly its non-pragma-once files; each of its pragma-once files is recorded in the session under its own location, and every location the session gains is that of one of them |
| ProviderProperties.PendingNamesOnceVariants | src/main/java/change/CustomIndexBasedFileContentProvider.java:165-166 | every pending entry maps a location to a pragma-once variant at that location |
| ProviderProperties.WalkAfterMergeSkipsClaimed | src/main/java/change/CustomIndexBasedFileContentProvider.java:165-173 | after a walk's pending map is merged into the session, a second walk from empty accumulators appends no file, below its own first file, at the location of a pragma-once file of the first walk |
| ProviderProperties.IncludeOnceAcrossCalls | src/main/java/change/CustomIndexBasedFileContentProvider.java:102-105 | of two index-hit resolutions in a row, the second's content, below its selected file, holds no file at the location of any pragma-once file the first returned |
| ProviderProperties.GapIsPrefixOfFullWalk | src/main/java/change/CustomIndexBasedFileContentProvider.java:237-244 | gap content never includes the target and has distinct pragma-once locations; its lists are prefixes of the full walk's from the context file, and when that walk reaches the target the gap's files are exactly the files before it |
| AttributeUtil.HasAttribute | src/main/java/org/eclipse/cdt/core/parser/util/AttributeUtil.java:40-50 | true exactly when some attribute's name equals some entry of `names` |
| AttributeUtil.NothingToMatch | src/main/java/org/eclipse/cdt/core/parser/util/AttributeUtil.java:42-49 | no attributes, or no names, means no match |
| AttributeUtil.NamedIsMonotone | src/main/java/org/eclipse/cdt/core/parser/util/AttributeUtil.java:40-50 | adding attributes never turns a match into a non-match |
| AttributeUtil.HasNoreturnAttribute | src/main/java/org/eclipse/cdt/core/parser/util/AttributeUtil.java:55-57 | true exactly when some attribute is named `__noreturn__` or `noreturn` |
| AttributeUtil.HasNodiscardAttribute | src/main/java/org/eclipse/cdt/core/parser/util/AttributeUtil.java:63-65 | true exactly when some attribute is named `warn_unused_result` or `nodiscard` |
| AttributeUtil.ImageDecidesSimpleArgument | src/main/java/org/eclipse/cdt/core/parser/util/AttributeUtil.java:67-74 | for every attribute, a clause with an image yields that image, and "a non-`null` result means exactly one argument" holds exactly when the clause reports an image only for a single argument |
| AttributeUtil.ArgumentsAreNotCounted | src/main/java/org/eclipse/cdt/core/parser/util/AttributeUtil.java:71-74 | the method returns the clause's image without counting arguments: a two-argument clause with an image yields that image |

## Left out

- Logging and `CoreException` (lines 110-112, 245-247): index-store access failures are not modelled, and the store is always readable.
- `CustomIndexerTask.IndexFileContent.merge`, the related task's `selectIndexFile` and `getFileContent`: these are not part of this model. A variant carries its already-interleaved list, and the indexer task is a pair of uninterpreted functions.
- `ASTFilePathResolver`, the fallback provider's raw read and `Path.lastSegment` are uninterpreted function fields. Fallback content is an opaque handle.
- `Path.lastSegment` is constrained only by `LastSegmentLaws`: a plain segment, alone or after a directory and `/`, is its own last segment. Canonicalisation of `.` and `..`, backslashes and devices are not modelled.
- `toPathList`, `findIndexFiles`, `getContextPath`, `getInclusionExists` and the setters are thin pass-throughs to collaborators or field writes. The configuration they would set is a field of `Config`.
- `super.resetForTranslationUnit()`: the superclass is not part of this model.
- The `path` and `macroDictionary` parameters of `getContentForContextToHeaderGap` are unused by the code and are omitted.
- `StandardAttributes` is not part of this model. `NORETURN` and `NODISCARD` take the values `noreturn` and `nodiscard` that the doc comments at AttributeUtil.java:53 and :60 name.
- Java object identity and hashing become integer ids. The gap's `contextFile == targetFile` and `file.equals(stopAt)` are both id equality.
- The `long` file size and size limit are unbounded integers. They are only compared, so no wrap-around arises.
- The related task's `selectIndexFile` is assumed to choose a variant the index store holds (`TaskSelectsIndexed`), a precondition of `SelectIndexFile` and of every operation that calls it, because the task's internals are not part of this model.
- ContentProvider.SelectIndexFile: with a related task, the contract only states the delegation, because the indexer task's choice is not visible.
- WalkOrder.AdvanceFlushesAllEarlier: "all directives declared before the include are flushed before it" is stated only for directive lists sorted by point of declaration, which the index supplies. On an unsorted list, a later directive with a small offset is flushed late, exactly as the loop does.
- AttributeUtil.GetSimpleArgument: the "zero or more than one argument" promise of the doc comment at AttributeUtil.java:67-70 is kept by the token implementations, which are not part of this model. `ImageDecidesSimpleArgument` shows for every attribute that the result is the clause's image and that the promise holds exactly when the clause reports an image only for a single argument; `ArgumentsAreNotCounted` shows that the method itself does not check it.

=== FILE: attributes.dfy ===
/**
 `AttributeUtil`: name matching over the attribute list of an AST node, and the
 argument of a single attribute.
 */
module AttributeUtil {
  import opened Wrappers

  /**
   An attribute's argument clause (`IASTToken`): the argument tokens it stands
   for and its character image, which a token may report as `null`.
   */
  datatype Token = Token(arguments: seq<string>, image: Option<string>)

  /** An `IASTAttribute`: its name and its optional argument clause. */
  datatype Attribute = Attribute(name: string, argumentClause: Option<Token>)

  /** An `IASTAttributeOwner`, through the attributes it carries. */
  datatype AttributeOwner = AttributeOwner(attributes: seq<Attribute>)

  /** The names `hasNoreturnAttribute` looks for, in the order the source lists them. */
  const NoreturnNames: seq<string> := ["__noreturn__", "noreturn"]

  /** The names `hasNodiscardAttribute` looks for, in the order the source lists them. */
  const NodiscardNames: seq<string> := ["warn_unused_result", "nodiscard"]

  /** Some attribute of `node` is named by some entry of `names`. */
  ghost predicate Named(node: AttributeOwner, names: seq<string>) {
    exists i, j :: 0 <= i < |node.attributes| && 0 <= j < |names| && node.attributes[i].name == names[j]
  }

  /**
   `hasAttribute`: scans the attributes in order and, for each, the names in
   order, returning `true` at the first match.
   */
  method HasAttribute(node: AttributeOwner, names: seq<string>) returns (r: bool)
    ensures r <==> Named(node, names)
  {
    var attributes := node.attributes;
    var a := 0;
    while a < |attributes|
      invariant 0 <= a <= |attributes|
      invariant forall i, j :: 0 <= i < a && 0 <= j < |names| ==> attributes[i].name != names[j]
    {
      var name := attributes[a].name;
      var i := 0;
      while i < |names|
        invariant 0 <= i <= |names|
        invariant forall j :: 0 <= j < i ==> name != names[j]
      {
        if name == names[i] {
          return true;
        }
        i := i + 1;
      }
      a := a + 1;
    }
    return false;
  }

  /** `hasNoreturnAttribute`: an attribute named `__noreturn__` or `noreturn`. */
  method HasNoreturnAttribute(node: AttributeOwner) returns (r: bool)
    ensures r <==> (exists i :: 0 <= i < |node.attributes| &&
                      (node.attributes[i].name == "__noreturn__" || node.attributes[i].name == "noreturn"))
  {
    r := HasAttribute(node, NoreturnNames);
    if r {
      var i, j :| 0 <= i < |node.attributes| && 0 <= j < |NoreturnNames| && node.attributes[i].name == NoreturnNames[j];
    } else {
      forall i | 0 <= i < |node.attributes|
        ensures node.attributes[i].name != "__noreturn__" && node.attributes[i].name != "noreturn"
      {
        assert NoreturnNames[0] == "__noreturn__" && NoreturnNames[1] == "noreturn";
      }
    }
  }

  /** `hasNodiscardAttribute`: an attribute named `warn_unused_result` or `nodiscard`. */
  method HasNodiscardAttribute(node: AttributeOwner) returns (r: bool)
    ensures r <==> (exists i :: 0 <= i < |node.attributes| &&
                      (node.attributes[i].name == "warn_unused_result" || node.attributes[i].name == "nodiscard"))
  {
    r := HasAttribute(node, NodiscardNames);
    if r {
      var i, j :| 0 <= i < |node.attributes| && 0 <= j < |NodiscardNames| && node.attributes[i].name == NodiscardNames[j];
    } else {
      forall i | 0 <= i < |node.attributes|
        ensures node.attributes[i].name != "warn_unused_result" && node.attributes[i].name != "nodiscard"
      {
        assert NodiscardNames[0] == "warn_unused_result" && NodiscardNames[1] == "nodiscard";
      }
    }
  }

  /** `getSimpleArgument`: the argument clause's character image, `null` without a clause. */
  function GetSimpleArgument(attribute: Attribute): (r: Option<string>)
    ensures attribute.argumentClause.None? ==> r.None?
    ensures attribute.argumentClause.Some? ==> r == attribute.argumentClause.value.image
  {
    match attribute.argumentClause
    case None => None
    case Some(token) => token.image
  }

  /** The number of arguments an attribute is written with. */
  function ArgumentCount(attribute: Attribute): (n: nat) {
    if attribute.argumentClause.None? then 0 else |attribute.argumentClause.value.arguments|
  }

  /** The clause reports a character image only when it is a single argument token. */
  predicate ImageOnlyForSingleArgument(attribute: Attribute) {
    attribute.argumentClause.Some? && attribute.argumentClause.value.image.Some? ==>
      |attribute.argumentClause.value.arguments| == 1
  }

  /**
   The documented promise holds exactly as far as the clause's tokens keep to
   `ImageOnlyForSingleArgument`: a non-`null` result then means one argument,
   and zero or several arguments give `null`.
   */
  lemma SimpleArgumentMeansOneArgument(attribute: Attribute)
    requires ImageOnlyForSingleArgument(attribute)
    ensures GetSimpleArgument(attribute).Some? ==> ArgumentCount(attribute) == 1
    ensures ArgumentCount(attribute) != 1 ==> GetSimpleArgument(attribute).None?
  {
  }

  /**
   For every attribute: a clause with an image yields that image whatever its
   number of arguments, so the documented promise "a non-`null` result means
   exactly one argument" holds for an attribute exactly when its clause keeps
   to `ImageOnlyForSingleArgument`.
   */
  lemma ImageDecidesSimpleArgument(attribute: Attribute)
    ensures attribute.argumentClause.Some? && attribute.argumentClause.value.image.Some? ==>
      GetSimpleArgument(attribute) == attribute.argumentClause.value.image
    ensures (GetSimpleArgument(attribute).Some? ==> ArgumentCount(attribute) == 1)
      <==> ImageOnlyForSingleArgument(attribute)
  {
  }

  /**
   The method itself does not count arguments: a clause of two arguments that
   reports an image still yields a non-`null` result.
   */
  lemma ArgumentsAreNotCounted()
    ensures var a := Attribute("aligned", Some(Token(["4", "8"], Some("4, 8"))));
      ArgumentCount(a) == 2 && GetSimpleArgument(a) == Some("4, 8")
  {
  }

  /** No attributes, or no names, means no match. */
  lemma NothingToMatch(node: AttributeOwner, names: seq<string>)
    requires |node.attributes| == 0 || |names| == 0
    ensures !Named(node, names)
  {
  }

  /** Adding attributes to a node never turns a match into a non-match. */
  lemma NamedIsMonotone(node: AttributeOwner, more: seq<Attribute>, names: seq<string>)
    requires Named(node, names)
    ensures Named(AttributeOwner(node.attributes + more), names)
  {
    var i, j :| 0 <= i < |node.attributes| && 0 <= j < |names| && node.attributes[i].name == names[j];
    assert (node.attributes + more)[i] == node.attributes[i];
  }
}

=== FILE: index.dfy ===
/**
 The abstract index the content provider reads from: an arena of indexed file
 variants addressed by integer ids, the store order in which the index lists
 them, and the optional on-demand indexer task that may stand in for the store.
 */
module IndexModel {
  import opened Wrappers

  /** Canonical file location (an `IIndexFileLocation`), compared by identity. */
  type Loc = nat

  /** Stable id of one indexed file variant (an `IIndexFile`). */
  type VariantId = nat

  /** The significant macros of a variant: macro name to the definition it was indexed under. */
  type Signature = map<string, string>

  /** `IMacroDictionary.satisfies`: does the current macro state agree with a signature? */
  type MacroDictionary = Signature -> bool

  datatype Macro = Macro(name: string, expansion: string)

  datatype UsingDirective = UsingDirective(pointOfDeclaration: int, nominatedScope: string)

  /** An `#include` record; `target` names the variant the index recorded for it. */
  datatype IncludeEdge = IncludeEdge(nameOffset: int, target: VariantId)

  /** One element of a file's interleaved preprocessing-directive list. */
  datatype Directive = MacroDef(macro: Macro) | Include(edge: IncludeEdge)

  /**
   One indexed snapshot of a file. `directives` is the include and macro list
   already interleaved in source order, `usingDirectives` is ordered by point of
   declaration.
   */
  datatype Variant = Variant(
    linkage: int,
    location: Loc,
    pragmaOnce: bool,
    significantMacros: Signature,
    directives: seq<Directive>,
    usingDirectives: seq<UsingDirective>)

  /** What a file nominates in the pragma-once map (`IFileNomination`). */
  datatype Nomination = IndexedFile(variant: VariantId) | ReportedByParser(token: nat)

  /** The content of a variant as handed out by the indexer task, or its stale-data failure. */
  datatype FileContent =
    | Content(usingDirectives: seq<UsingDirective>, directives: seq<Directive>)
    | DependsOnOutdated

  /** The on-demand indexer task (`CustomIndexerTask`), whose internals are not modelled. */
  datatype IndexerTask = IndexerTask(
    selectIndexFile: (int, Loc, MacroDictionary) -> Option<VariantId>,
    getFileContent: (int, Loc, VariantId) -> FileContent)

  /** The index store: every variant by id, and the order in which the store lists them. */
  datatype Index = Index(arena: map<VariantId, Variant>, order: seq<VariantId>)

  /** What the traversal reads: the index, the optional related task and the linkage in use. */
  datatype Env = Env(index: Index, task: Option<IndexerTask>, linkage: int)

  /** `IIndex.resolveInclude`: the recorded target if the index holds it, otherwise `null`. */
  function Resolve(ix: Index, e: IncludeEdge): (r: Option<VariantId>)
    ensures r.Some? <==> e.target in ix.arena
    ensures r.Some? ==> r.value == e.target
  {
    if e.target in ix.arena then Some(e.target) else None
  }

  /** `IIndex.getFiles(linkage, location)`: the stored variants of one location, in store order. */
  function GetFiles(ix: Index, linkage: int, loc: Loc): (r: seq<VariantId>)
    ensures forall f :: f in r <==>
      f in ix.order && f in ix.arena && ix.arena[f].linkage == linkage && ix.arena[f].location == loc
    ensures |r| <= |ix.order|
    decreases |ix.order|
  {
    if |ix.order| == 0 then []
    else
      var rest := GetFiles(Index(ix.arena, ix.order[1..]), linkage, loc);
      var f := ix.order[0];
      assert forall g :: g in ix.order <==> g == f || g in ix.order[1..];
      if f in ix.arena && ix.arena[f].linkage == linkage && ix.arena[f].location == loc
      then [f] + rest
      else rest
  }

  /**
   `GetFiles` keeps store order: the answer for the first `p` stored ids is a
   prefix of the answer for the whole store, so a variant stored earlier is
   returned earlier.
   */
  lemma {:induction false} GetFilesStoreOrder(ix: Index, linkage: int, loc: Loc, p: nat)
    requires p <= |ix.order|
    ensures GetFiles(Index(ix.arena, ix.order[..p]), linkage, loc) <= GetFiles(ix, linkage, loc)
    decreases |ix.order|
  {
    if p > 0 {
      var pre := Index(ix.arena, ix.order[..p]);
      var tail := Index(ix.arena, ix.order[1..]);
      GetFilesStoreOrder(tail, linkage, loc, p - 1);
      assert pre.order[0] == ix.order[0];
      assert Index(pre.arena, pre.order[1..]) == Index(tail.arena, tail.order[..p - 1]);
      var a := GetFiles(tail, linkage, loc);
      var b := GetFiles(Index(tail.arena, tail.order[..p - 1]), linkage, loc);
      assert b <= a;
    }
  }

  /**
   The content the traversal walks for a variant: the indexer task's answer when one is
   configured (which may report stale data), otherwise the variant's own lists.
   */
  function FetchContent(env: Env, id: VariantId): (c: FileContent)
    requires id in env.index.arena
    ensures env.task.None? ==>
      c == Content(env.index.arena[id].usingDirectives, env.index.arena[id].directives)
  {
    match env.task
    case Some(task) => task.getFileContent(env.linkage, env.index.arena[id].location, id)
    case None => Content(env.index.arena[id].usingDirectives, env.index.arena[id].directives)
  }

  /** Every variant a configured task selects is one the index holds. */
  ghost predicate TaskSelectsIndexed(env: Env) {
    env.task.Some? ==>
      forall lk, loc, d :: env.task.value.selectIndexFile(lk, loc, d).Some? ==>
        env.task.value.selectIndexFile(lk, loc, d).value in env.index.arena
  }
}

=== FILE: provider.dfy ===
/**
 The content provider around the walk: variant selection, the top-level
 resolution of an inclusion with its commit-or-rollback of the session
 pragma-once map, the size-limit and fallback rules, gap reconstruction, the
 pragma-once report/query surface and the all-header-versions predicate.

 The provider's mutable session map is passed in and returned; its
 collaborators (path resolver, fallback reader, `Path.lastSegment`) are
 function-valued fields of `Config`.
 */
module ContentProvider {
  import opened Wrappers
  import opened IndexModel
  import opened ContentWalk

  /** The path the gap content is reported under instead of a real file path. */
  const GAP: string := "__gap__"

  /** `ASTFilePathResolver`: path to location, location to AST path, file size, source-file test. */
  datatype PathResolver = PathResolver(
    resolveIncludeFile: string -> Option<Loc>,
    getASTPath: Loc -> string,
    getFileSize: string -> int,
    isSource: string -> bool)

  /** Content produced by the fallback reader, opaque to this model. */
  datatype FallbackRead = FallbackRead(handle: nat)

  /** A preloaded version: the AST path and significant macros of a variant that was inlined. */
  datatype FileVersion = FileVersion(path: string, significantMacros: Signature)

  /** `InternalFileContent` in the three shapes this provider produces. */
  datatype InternalFileContent =
    | Indexed(path: string, macros: seq<Macro>, usingDirectives: seq<UsingDirective>,
              files: seq<VariantId>, preLoaded: seq<FileVersion>)
    | SkipFile(path: string)
    | Read(read: FallbackRead, isSource: bool)

  /** Result of gap reconstruction: no gap (`null`), the gap content, or the stale-data exception. */
  datatype GapResult = NoGap | Gap(content: InternalFileContent) | GapDependsOnOutdated

  /** Everything about the provider except its session pragma-once map. */
  datatype Config = Config(
    env: Env,
    resolver: PathResolver,
    fallback: Option<(Loc, string) -> Option<FallbackRead>>,
    fileSizeLimit: int,
    contextToHeaderGap: Option<(Option<VariantId>, Option<VariantId>)>,
    headersToIndexAllVersions: set<string>,
    indexAllHeaderVersions: bool,
    lastSegment: string -> Option<string>)

  /** The context file of a configured gap is a variant of the index. */
  predicate GapContextIndexed(c: Config) {
    c.contextToHeaderGap.Some? && c.contextToHeaderGap.value.0.Some? ==>
      c.contextToHeaderGap.value.0.value in c.env.index.arena
  }

  /** The session map a new translation unit starts with. */
  function ResetForTranslationUnit(session: Session): (s: Session)
    ensures forall k :: k !in s
  {
    map[]
  }

  /** Records a nomination under the location the path resolves to (possibly `null`). */
  function ReportPragmaOnceSemantics(c: Config, session: Session, path: string, nom: Nomination): (s: Session)
    ensures c.resolver.resolveIncludeFile(path) in s
    ensures s[c.resolver.resolveIncludeFile(path)] == nom
    ensures forall k :: k != c.resolver.resolveIncludeFile(path) ==> (k in s <==> k in session)
    ensures forall k :: k != c.resolver.resolveIncludeFile(path) && k in session ==> s[k] == session[k]
  {
    session[c.resolver.resolveIncludeFile(path) := nom]
  }

  /** The nomination recorded for the location the path resolves to, if any. */
  function IsIncludedWithPragmaOnceSemantics(c: Config, session: Session, path: string): (r: Option<Nomination>)
    ensures r.Some? <==> c.resolver.resolveIncludeFile(path) in session
    ensures r.Some? ==> r.value == session[c.resolver.resolveIncludeFile(path)]
  {
    var k := c.resolver.resolveIncludeFile(path);
    if k in session then Some(session[k]) else None
  }

  /** `putAll` of a pending map into the session map. */
  function Merge(session: Session, pending: map<Loc, VariantId>): (s: Session)
    ensures forall k :: k in s <==> k in session || (k.Some? && k.value in pending)
    ensures forall l :: l in pending ==> s[Some(l)] == IndexedFile(pending[l])
    ensures forall k :: k in session && !(k.Some? && k.value in pending) ==> s[k] == session[k]
  {
    map k | k in session.Keys + (set l | l in pending :: Some(l)) ::
      if k.Some? && k.value in pending then IndexedFile(pending[k.value]) else session[k]
  }

  /**
   `r` is the first variant of `files` whose significant macros the dictionary
   satisfies, or `None` when none of them is satisfied.
   */
  ghost predicate FirstMatch(ix: Index, files: seq<VariantId>, dict: MacroDictionary, r: Option<VariantId>)
    requires forall i :: 0 <= i < |files| ==> files[i] in ix.arena
  {
    && (r.None? <==> forall i :: 0 <= i < |files| ==> !dict(ix.arena[files[i]].significantMacros))
    && (r.Some? ==>
          exists i :: && 0 <= i < |files| && files[i] == r.value
                      && dict(ix.arena[files[i]].significantMacros)
                      && forall j :: 0 <= j < i ==> !dict(ix.arena[files[j]].significantMacros))
  }

  /** The loop of `selectIndexFile` over the stored variants. */
  function FirstSatisfying(ix: Index, files: seq<VariantId>, dict: MacroDictionary): (r: Option<VariantId>)
    requires forall i :: 0 <= i < |files| ==> files[i] in ix.arena
    ensures FirstMatch(ix, files, dict, r)
  {
    if |files| == 0 then None
    else if dict(ix.arena[files[0]].significantMacros) then Some(files[0])
    else
      var r := FirstSatisfying(ix, files[1..], dict);
      if r.Some? then
        var i :| && 0 <= i < |files[1..]| && files[1..][i] == r.value
                 && dict(ix.arena[files[1..][i]].significantMacros)
                 && forall j :: 0 <= j < i ==> !dict(ix.arena[files[1..][j]].significantMacros);
        assert files[i + 1] == r.value;
        r
      else r
  }

  /**
   `selectIndexFile`: the related task's choice when one is configured,
   otherwise the first stored variant of the location, in store order, that
   the dictionary satisfies, or `null`.
   */
  function SelectIndexFile(env: Env, dict: MacroDictionary, loc: Loc): (r: Option<VariantId>)
    requires TaskSelectsIndexed(env)
    ensures r.Some? ==> r.value in env.index.arena
    ensures env.task.Some? ==> r == env.task.value.selectIndexFile(env.linkage, loc, dict)
    ensures env.task.None? ==> r.Some? ==>
      env.index.arena[r.value].location == loc && env.index.arena[r.value].linkage == env.linkage
    ensures env.task.None? ==> FirstMatch(env.index, GetFiles(env.index, env.linkage, loc), dict, r)
  {
    if env.task.Some? then env.task.value.selectIndexFile(env.linkage, loc, dict)
    else
      var files := GetFiles(env.index, env.linkage, loc);
      assert forall i :: 0 <= i < |files| ==> files[i] in files;
      FirstSatisfying(env.index, files, dict)
  }

  /** `toList`: the preloaded variants as (AST path, significant macros) pairs. */
  function ToFileVersions(c: Config, ids: seq<VariantId>): (r: seq<FileVersion>)
    requires forall i :: 0 <= i < |ids| ==> ids[i] in c.env.index.arena
    ensures |r| == |ids|
    ensures forall i :: 0 <= i < |ids| ==>
      r[i].path == c.resolver.getASTPath(c.env.index.arena[ids[i]].location)
      && r[i].significantMacros == c.env.index.arena[ids[i]].significantMacros
  {
    seq(|ids|, i requires 0 <= i < |ids| =>
      FileVersion(c.resolver.getASTPath(c.env.index.arena[ids[i]].location),
                  c.env.index.arena[ids[i]].significantMacros))
  }

  /** `getContentForInclusion(ifl, astPath)`: the fallback reader's content, `null` without a reader. */
  function FallbackContent(c: Config, loc: Loc, astPath: string): (r: Option<InternalFileContent>)
    ensures c.fallback.None? ==> r.None?
    ensures c.fallback.Some? ==> (r.None? <==> c.fallback.value(loc, astPath).None?)
    ensures r.Some? ==>
      && r.value.Read? && r.value.isSource == c.resolver.isSource(astPath)
      && r.value.read == c.fallback.value(loc, astPath).value
  {
    match c.fallback
    case None => None
    case Some(read) =>
      match read(loc, astPath)
      case None => None
      case Some(rd) => Some(Read(rd, c.resolver.isSource(astPath)))
  }

  /** The walk the top-level resolution runs for a selected variant: no stop-at, `null` guard. */
  function InclusionWalk(c: Config, session: Session, file: VariantId): (w: Walk)
    requires file in c.env.index.arena
  {
    Collect(c.env, file, None, session, EmptyAcc, None)
  }

  /** The index supplies the content: the path resolves, a variant is selected, its walk is not stale. */
  predicate IndexHit(c: Config, session: Session, path: string, dict: MacroDictionary)
    requires TaskSelectsIndexed(c.env)
  {
    var loc := c.resolver.resolveIncludeFile(path);
    && loc.Some?
    && var file := SelectIndexFile(c.env, dict, loc.value);
    && file.Some?
    && InclusionWalk(c, session, file.value).outcome != Outdated
  }

  /** What follows when the index supplies nothing: the size-limit rule, then the fallback reader. */
  function WithoutIndex(c: Config, loc: Loc, astPath: string): (r: Option<InternalFileContent>)
    ensures c.fileSizeLimit > 0 && c.resolver.getFileSize(astPath) > c.fileSizeLimit ==>
      r == Some(SkipFile(astPath))
    ensures !(c.fileSizeLimit > 0 && c.resolver.getFileSize(astPath) > c.fileSizeLimit) ==>
      r == FallbackContent(c, loc, astPath)
  {
    if c.fileSizeLimit > 0 && c.resolver.getFileSize(astPath) > c.fileSizeLimit then Some(SkipFile(astPath))
    else FallbackContent(c, loc, astPath)
  }

  /**
   `getContentForInclusion(path, macroDictionary)`: the content of an included
   file and the session map afterwards.
   */
  function GetContentForInclusion(c: Config, session: Session, path: string, dict: MacroDictionary)
    : (r: (Option<InternalFileContent>, Session))
    requires TaskSelectsIndexed(c.env)
    ensures c.resolver.resolveIncludeFile(path).None? ==> r == (None, session)
    ensures r.1 != session ==> IndexHit(c, session, path, dict)
    ensures IndexHit(c, session, path, dict) ==>
      var loc := c.resolver.resolveIncludeFile(path).value;
      var file := SelectIndexFile(c.env, dict, loc).value;
      var w := InclusionWalk(c, session, file);
      && r.0.Some? && r.0.value.Indexed?
      && r.0.value.path == c.resolver.getASTPath(loc)
      && |r.0.value.files| > 0 && r.0.value.files[0] == file
      && r.0.value.macros == w.acc.macros
      && r.0.value.usingDirectives == w.acc.usingDirectives
      && r.0.value.files == w.acc.files
      && r.1 == Merge(session, w.acc.pending)
    ensures c.resolver.resolveIncludeFile(path).Some? && !IndexHit(c, session, path, dict) ==>
      var loc := c.resolver.resolveIncludeFile(path).value;
      var astPath := c.resolver.getASTPath(loc);
      var tooLarge := c.fileSizeLimit > 0 && c.resolver.getFileSize(astPath) > c.fileSizeLimit;
      && r.1 == session
      && (tooLarge ==> r.0 == Some(SkipFile(astPath)))
      && (!tooLarge ==> r.0 == FallbackContent(c, loc, astPath))
  {
    match c.resolver.resolveIncludeFile(path)
    case None => (None, session)
    case Some(loc) =>
      var astPath := c.resolver.getASTPath(loc);
      var file := SelectIndexFile(c.env, dict, loc);
      if file.Some? && InclusionWalk(c, session, file.value).outcome != Outdated then
        var w := InclusionWalk(c, session, file.value);
        assert Entered(c.env, file.value, None, session, EmptyAcc, None);
        (Some(Indexed(astPath, w.acc.macros, w.acc.usingDirectives, w.acc.files,
                      ToFileVersions(c, w.acc.preLoaded))),
         Merge(session, w.acc.pending))
      else
        (WithoutIndex(c, loc, astPath), session)
  }

  /** The gap walk: from the context file toward the target, with an empty (non-`null`) guard. */
  function GapWalk(c: Config, session: Session, context: VariantId, target: VariantId): (w: Walk)
    requires context in c.env.index.arena
  {
    Collect(c.env, context, Some(target), session, EmptyAcc, Some({}))
  }

  /** `getContentForContextToHeaderGap`: the content from the context file up to the target. */
  function GetContentForContextToHeaderGap(c: Config, session: Session): (r: (GapResult, Session))
    requires GapContextIndexed(c)
    ensures c.contextToHeaderGap.None? ==> r == (NoGap, session)
    ensures c.contextToHeaderGap.Some? ==>
      (|| c.contextToHeaderGap.value.0.None?
       || c.contextToHeaderGap.value.1.None?
       || c.contextToHeaderGap.value.0 == c.contextToHeaderGap.value.1) ==>
      r == (NoGap, session)
    ensures !r.0.Gap? ==> r.1 == session
    ensures r.0.Gap? ==>
      var ctx := c.contextToHeaderGap.value.0.value;
      var tgt := c.contextToHeaderGap.value.1.value;
      var w := GapWalk(c, session, ctx, tgt);
      && ctx != tgt
      && w.outcome == BoundaryReached
      && r.0.content.Indexed? && r.0.content.path == GAP
      && r.0.content.files == w.acc.files
      && r.0.content.macros == w.acc.macros
      && r.0.content.usingDirectives == w.acc.usingDirectives
      && r.1 == Merge(session, w.acc.pending)
    ensures c.contextToHeaderGap.Some? ==>
      var pair := c.contextToHeaderGap.value;
      pair.0.Some? && pair.1.Some? && pair.0 != pair.1 ==>
      var w := GapWalk(c, session, pair.0.value, pair.1.value);
      && (w.outcome == BoundaryReached ==>
            && r.0.Gap? && r.0.content.Indexed?
            && r.0.content.preLoaded == ToFileVersions(c, w.acc.preLoaded))
      && (w.outcome == Continue ==> r == (NoGap, session))
      && (w.outcome == Outdated ==> r == (GapDependsOnOutdated, session))
    ensures r.0.GapDependsOnOutdated? ==> c.env.task.Some?
    ensures c.contextToHeaderGap.Some? ==>
      var pair := c.contextToHeaderGap.value;
      (pair.0.Some? && pair.1.Some? && pair.0 != pair.1 &&
       Some(c.env.index.arena[pair.0.value].location) in session) ==>
      r == (NoGap, session)
  {
    match c.contextToHeaderGap
    case None => (NoGap, session)
    case Some(pair) =>
      if pair.0.None? || pair.1.None? || pair.0 == pair.1 then (NoGap, session)
      else
        var w := GapWalk(c, session, pair.0.value, pair.1.value);
        match w.outcome
        case Outdated => (GapDependsOnOutdated, session)
        case Continue => (NoGap, session)
        case BoundaryReached =>
          (Gap(Indexed(GAP, w.acc.macros, w.acc.usingDirectives, w.acc.files,
                       ToFileVersions(c, w.acc.preLoaded))),
           Merge(session, w.acc.pending))
  }

  /** One path segment: non-empty, not `.` or `..`, with no separator and no device colon. */
  predicate PlainSegment(n: string) {
    && n != "" && n != "." && n != ".."
    && forall i :: 0 <= i < |n| ==> n[i] != '/' && n[i] != '\\' && n[i] != ':'
  }

  /**
   What the model relies on of `Path.lastSegment`: a plain segment is its own
   last segment, also when it follows a directory and a `/`.
   */
  ghost predicate LastSegmentLaws(lastSegment: string -> Option<string>) {
    && (forall n :: PlainSegment(n) ==> lastSegment(n) == Some(n))
    && (forall dir, n :: PlainSegment(n) ==> lastSegment(dir + "/" + n) == Some(n))
  }

  /** `shouldIndexAllHeaderVersions`: the global flag, or the file's last segment is a listed header. */
  function ShouldIndexAllHeaderVersions(c: Config, fileName: string): (r: bool)
    ensures c.indexAllHeaderVersions ==> r
    ensures !c.indexAllHeaderVersions ==>
      (r <==> exists h :: h in c.headersToIndexAllVersions && c.lastSegment(fileName) == Some(h))
  {
    if c.indexAllHeaderVersions then true
    else
      var last := c.lastSegment(fileName);
      last.Some? && last.value in c.headersToIndexAllVersions
  }
}

=== FILE: provider_props.dfy ===
/**
 Properties of the provider operations that relate several calls or lean on
 the walk's invariants.
 */
module ProviderProperties {
  import opened Wrappers
  import opened IndexModel
  import opened ContentWalk
  import opened WalkInvariants
  import opened WalkStop
  import opened WalkOnce
  import opened WalkClaims
  import opened ContentProvider

  /** A query after a report sees the reported nomination for every path resolving to the same key. */
  lemma ReportThenQuery(c: Config, session: Session, p: string, nom: Nomination, q: string)
    ensures IsIncludedWithPragmaOnceSemantics(c, ReportPragmaOnceSemantics(c, session, p, nom), q)
      == if c.resolver.resolveIncludeFile(q) == c.resolver.resolveIncludeFile(p) then Some(nom)
         else IsIncludedWithPragmaOnceSemantics(c, session, q)
  {
  }

  /** The answer depends only on the flag, the listed headers and the name's last segment. */
  lemma ShouldIndexAllHeaderVersionsBySegment(c: Config, a: string, b: string)
    requires c.lastSegment(a) == c.lastSegment(b)
    ensures ShouldIndexAllHeaderVersions(c, a) == ShouldIndexAllHeaderVersions(c, b)
  {
  }

  /** A header listed by name has all its versions indexed, whatever directory it is in. */
  lemma ListedHeaderInAnyDirectory(c: Config, dir: string, h: string)
    requires LastSegmentLaws(c.lastSegment) && PlainSegment(h) && h in c.headersToIndexAllVersions
    ensures ShouldIndexAllHeaderVersions(c, h)
    ensures ShouldIndexAllHeaderVersions(c, dir + "/" + h)
  {
  }

  /** A file whose name is not listed has all its versions indexed only under the global flag. */
  lemma UnlistedHeaderFollowsFlag(c: Config, dir: string, n: string)
    requires LastSegmentLaws(c.lastSegment) && PlainSegment(n) && n !in c.headersToIndexAllVersions
    ensures ShouldIndexAllHeaderVersions(c, n) == c.indexAllHeaderVersions
    ensures ShouldIndexAllHeaderVersions(c, dir + "/" + n) == c.indexAllHeaderVersions
  {
  }

  /** After a reset no path is reported as included with pragma-once semantics. */
  lemma ResetForgetsEverything(c: Config, session: Session, p: string)
    ensures IsIncludedWithPragmaOnceSemantics(c, ResetForTranslationUnit(session), p).None?
  {
  }

  /**
   The content of an index hit: every pragma-once location appears at most once
   among its files, its preloaded versions are those of its non-pragma-once
   files, one per distinct variant in first-visit order. The session records
   its pragma-once files: each such file is recorded
   under its own location, and every location the session did not hold before
   is that of one of them.
   */
  lemma InclusionContentInvariants(c: Config, session: Session, path: string, dict: MacroDictionary)
    requires TaskSelectsIndexed(c.env)
    requires IndexHit(c, session, path, dict)
    ensures var r := GetContentForInclusion(c, session, path, dict);
      var ix := c.env.index;
      var w := InclusionWalk(c, session,
                             SelectIndexFile(c.env, dict, c.resolver.resolveIncludeFile(path).value).value);
      && r.0.Some? && r.0.value.Indexed?
      && AllInArena(ix, r.0.value.files)
      && OnceLocationsDistinct(ix, r.0.value.files)
      && NoDuplicates(w.acc.preLoaded)
      && (forall f :: f in w.acc.preLoaded <==> f in r.0.value.files && !ix.arena[f].pragmaOnce)
      && r.0.value.preLoaded == ToFileVersions(c, w.acc.preLoaded)
      && (forall k :: k in r.1 && k !in session ==>
            k.Some? && r.1[k].IndexedFile? && r.1[k].variant in ix.arena
            && ix.arena[r.1[k].variant].location == k.value && ix.arena[r.1[k].variant].pragmaOnce
            && r.1[k].variant in r.0.value.files)
      && (forall i :: 0 <= i < |r.0.value.files| && ix.arena[r.0.value.files[i]].pragmaOnce ==>
            var k := Some(ix.arena[r.0.value.files[i]].location);
            k in r.1 && r.1[k] == IndexedFile(r.0.value.files[i]))
  {
    var loc := c.resolver.resolveIncludeFile(path).value;
    var file := SelectIndexFile(c.env, dict, loc).value;
    FreshWalkInvariants(c.env, file, None, session, None);
    PendingNamesOnceVariants(c.env, file, None, session, EmptyAcc, None);
    CollectClaimsMatch(c.env, file, None, session, EmptyAcc, None);
    MergeRecordsClaims(c.env.index, session, InclusionWalk(c, session, file).acc);
  }

  /** Merging a matched pending map records the pragma-once files, and only them, under new keys. */
  lemma MergeRecordsClaims(ix: Index, session: Session, acc: Acc)
    requires ClaimsMatch(ix, acc, session) && PendingWellFormed(ix, acc.pending)
    ensures var s := Merge(session, acc.pending);
      && (forall k :: k in s && k !in session ==>
            k.Some? && s[k].IndexedFile? && s[k].variant in acc.files)
      && (forall i :: 0 <= i < |acc.files| && acc.files[i] in ix.arena && ix.arena[acc.files[i]].pragmaOnce ==>
            var k := Some(ix.arena[acc.files[i]].location);
            k in s && s[k] == IndexedFile(acc.files[i]))
  {
  }

  /** Every entry of the pending map maps a location to a pragma-once variant at that location. */
  predicate PendingWellFormed(ix: Index, pending: map<Loc, VariantId>) {
    forall l :: l in pending ==>
      pending[l] in ix.arena && ix.arena[pending[l]].location == l && ix.arena[pending[l]].pragmaOnce
  }

  lemma {:induction false} PendingNamesOnceVariants(env: Env, id: VariantId, stopAt: Option<VariantId>,
                                                    session: Session, acc: Acc, guard: Option<set<VariantId>>)
    requires id in env.index.arena && PendingWellFormed(env.index, acc.pending)
    ensures PendingWellFormed(env.index, Collect(env, id, stopAt, session, acc, guard).acc.pending)
    decreases |env.index.arena.Keys - GuardSet(guard)|, 1
  {
    var v := env.index.arena[id];
    if stopAt != Some(id) && v.location !in acc.pending {
      var acc1 := Nominated(v, id, acc);
      NominatedKeepsPendingWellFormed(env.index, id, acc);
      if !(guard.Some? && Some(v.location) in session) && id !in GuardSet(guard) {
        VisitPendingNamesOnceVariants(env, id, stopAt, session, acc1, GuardSet(guard));
        assert Collect(env, id, stopAt, session, acc, guard) == Visit(env, id, stopAt, session, acc1, GuardSet(guard));
      } else {
        assert Collect(env, id, stopAt, session, acc, guard).acc == acc1;
      }
    }
  }

  lemma NominatedKeepsPendingWellFormed(ix: Index, id: VariantId, acc: Acc)
    requires id in ix.arena && PendingWellFormed(ix, acc.pending)
    ensures PendingWellFormed(ix, Nominated(ix.arena[id], id, acc).pending)
  {
  }

  lemma {:induction false} VisitPendingNamesOnceVariants(env: Env, id: VariantId, stopAt: Option<VariantId>,
                                                         session: Session, acc: Acc, g: set<VariantId>)
    requires id in env.index.arena && id !in g && PendingWellFormed(env.index, acc.pending)
    ensures PendingWellFormed(env.index, Visit(env, id, stopAt, session, acc, g).acc.pending)
    decreases |env.index.arena.Keys - g|, 0
  {
    var v := env.index.arena[id];
    var g1 := g + {id};
    GuardShrinks(env.index.arena.Keys, g, id);
    match FetchContent(env, id)
    case DependsOnOutdated =>
    case Content(uds, pds) =>
      var acc1 := Appended(v, id, acc);
      ListPendingNamesOnceVariants(env, uds, pds, 0, 0, stopAt, session, acc1, g1);
  }

  lemma {:induction false} ListPendingNamesOnceVariants(env: Env, uds: seq<UsingDirective>, pds: seq<Directive>,
                                                        k: nat, udx: nat, stopAt: Option<VariantId>,
                                                        session: Session, acc: Acc, guard: set<VariantId>)
    requires k <= |pds| && udx <= |uds| && PendingWellFormed(env.index, acc.pending)
    ensures PendingWellFormed(env.index, CollectList(env, uds, pds, k, udx, stopAt, session, acc, guard).acc.pending)
    decreases |env.index.arena.Keys - guard|, 2, |pds| - k
  {
    if k < |pds| {
      match pds[k]
      case MacroDef(m) =>
        ListPendingNamesOnceVariants(env, uds, pds, k + 1, udx, stopAt, session,
                                     acc.(macros := acc.macros + [m]), guard);
      case Include(e) =>
        match Resolve(env.index, e)
        case None =>
          ListPendingNamesOnceVariants(env, uds, pds, k + 1, udx, stopAt, session, acc, guard);
        case Some(t) =>
          var j := Advance(uds, udx, e.nameOffset);
          var acc1 := acc.(usingDirectives := acc.usingDirectives + uds[udx..j]);
          PendingNamesOnceVariants(env, t, stopAt, session, acc1, Some(guard));
          var n := Collect(env, t, stopAt, session, acc1, Some(guard));
          if n.outcome == Continue {
            ListPendingNamesOnceVariants(env, uds, pds, k + 1, j, stopAt, session, n.acc, n.guard);
          }
    }
  }

  /**
   Gap content: the target itself is never part of it, and its files, macros,
   using directives and preloaded variants are prefixes of those of the full
   walk from the context file. Its files are everything that walk appends up to
   the target: when the full walk reaches the target, the target comes right
   after them.
   */
  lemma GapIsPrefixOfFullWalk(c: Config, session: Session)
    requires GapContextIndexed(c)
    ensures var r := GetContentForContextToHeaderGap(c, session);
      r.0.Gap? ==>
        var ctx := c.contextToHeaderGap.value.0.value;
        var tgt := c.contextToHeaderGap.value.1.value;
        var w := GapWalk(c, session, ctx, tgt);
        var full := Collect(c.env, ctx, None, session, EmptyAcc, Some({}));
        && tgt !in r.0.content.files
        && OnceLocationsDistinct(c.env.index, r.0.content.files)
        && r.0.content.files <= full.acc.files
        && (tgt in full.acc.files ==> r.0.content.files + [tgt] <= full.acc.files)
        && r.0.content.macros <= full.acc.macros
        && r.0.content.usingDirectives <= full.acc.usingDirectives
        && w.acc.preLoaded <= full.acc.preLoaded
  {
    var r := GetContentForContextToHeaderGap(c, session);
    if r.0.Gap? {
      var ctx := c.contextToHeaderGap.value.0.value;
      var tgt := c.contextToHeaderGap.value.1.value;
      FreshWalkInvariants(c.env, ctx, Some(tgt), session, Some({}));
      StopAtIsPrefixOfFullWalk(c.env, ctx, tgt, session, Some({}));
    }
  }

  /**
   Include-once across two inclusions of one translation unit: once an index
   hit has committed its pragma-once locations to the session, a later index
   hit appends no file at any of those locations below its own top file.
   */
  lemma IncludeOnceAcrossCalls(c: Config, session: Session, p1: string, d1: MacroDictionary,
                               p2: string, d2: MacroDictionary)
    requires TaskSelectsIndexed(c.env)
    ensures var r1 := GetContentForInclusion(c, session, p1, d1);
      var r2 := GetContentForInclusion(c, r1.1, p2, d2);
      var ix := c.env.index;
      IndexHit(c, session, p1, d1) && IndexHit(c, r1.1, p2, d2) ==>
        && r1.0.Some? && r1.0.value.Indexed? && r2.0.Some? && r2.0.value.Indexed?
        && AllInArena(ix, r1.0.value.files) && AllInArena(ix, r2.0.value.files)
        && forall i, j :: (&& 0 <= i < |r1.0.value.files| && 1 <= j < |r2.0.value.files|
                           && ix.arena[r1.0.value.files[i]].pragmaOnce) ==>
             ix.arena[r2.0.value.files[j]].location != ix.arena[r1.0.value.files[i]].location
  {
    var ix := c.env.index;
    var r1 := GetContentForInclusion(c, session, p1, d1);
    if IndexHit(c, session, p1, d1) && IndexHit(c, r1.1, p2, d2) {
      var r2 := GetContentForInclusion(c, r1.1, p2, d2);
      var f1 := SelectIndexFile(c.env, d1, c.resolver.resolveIncludeFile(p1).value).value;
      var f2 := SelectIndexFile(c.env, d2, c.resolver.resolveIncludeFile(p2).value).value;
      var w1 := InclusionWalk(c, session, f1);
      assert r1.0.value.files == w1.acc.files && r1.1 == Merge(session, w1.acc.pending);
      assert r2.0.value.files == InclusionWalk(c, r1.1, f2).acc.files;
      WalkAfterMergeSkipsClaimed(c.env, session, f1, f2);
    }
  }

  /** The walk-level form: a walk run on the session merged with an earlier walk's pending map. */
  lemma WalkAfterMergeSkipsClaimed(env: Env, session: Session, f1: VariantId, f2: VariantId)
    requires f1 in env.index.arena && f2 in env.index.arena
    ensures var w1 := Collect(env, f1, None, session, EmptyAcc, None);
      var w2 := Collect(env, f2, None, Merge(session, w1.acc.pending), EmptyAcc, None);
      var ix := env.index;
      && AllInArena(ix, w1.acc.files) && AllInArena(ix, w2.acc.files)
      && forall i, j :: (&& 0 <= i < |w1.acc.files| && 1 <= j < |w2.acc.files|
                         && ix.arena[w1.acc.files[i]].pragmaOnce) ==>
           ix.arena[w2.acc.files[j]].location != ix.arena[w1.acc.files[i]].location
  {
    var w1 := Collect(env, f1, None, session, EmptyAcc, None);
    var s1 := Merge(session, w1.acc.pending);
    var w2 := Collect(env, f2, None, s1, EmptyAcc, None);
    FreshWalkInvariants(env, f1, None, session, None);
    FreshWalkInvariants(env, f2, None, s1, None);
    CollectAppendsUnclaimed(env, f2, None, s1, EmptyAcc, None);
    ClaimedLocationsStayOut(env.index, w1.acc.files, w1.acc.pending, session, w2.acc.files);
  }

  /** Files at the pending locations of a merged walk stay out of a later walk's nested files. */
  lemma ClaimedLocationsStayOut(ix: Index, files1: seq<VariantId>, pending: map<Loc, VariantId>,
                                session: Session, files2: seq<VariantId>)
    requires AllInArena(ix, files1) && AllInArena(ix, files2)
    requires forall i :: 0 <= i < |files1| && ix.arena[files1[i]].pragmaOnce ==> ix.arena[files1[i]].location in pending
    requires Unclaimed(ix, files2, 1, map[], Merge(session, pending))
    ensures forall i, j :: (&& 0 <= i < |files1| && 1 <= j < |files2|
                            && ix.arena[files1[i]].pragmaOnce) ==>
      ix.arena[files2[j]].location != ix.arena[files1[i]].location
  {
    forall i, j | && 0 <= i < |files1| && 1 <= j < |files2| && ix.arena[files1[i]].pragmaOnce
      ensures ix.arena[files2[j]].location != ix.arena[files1[i]].location
    {
      var l := ix.arena[files1[i]].location;
      assert Some(l) in Merge(session, pending);
    }
  }
}

=== FILE: walk.dfy ===
/**
 The include-graph traversal `collectFileContent`: a depth-first, pre-order walk
 over a variant's interleaved macro and include list that accumulates the
 visited files, the macros, the using directives (woven in by declaration
 offset), the non-pragma-once preloaded versions and a pending pragma-once map.

 `Collect` is one call of the source method; `CollectList` is its loop over the
 interleaved list, with `udx` the index of the next using directive not yet
 flushed. The guard set stays a value: `Collect` returns the set as it stands
 when the call ends, which on a normal return is the set it was given.
 */
module ContentWalk {
  import opened Wrappers
  import opened IndexModel

  /** The committed session pragma-once map; `None` is the `null` key a Java `HashMap` accepts. */
  type Session = map<Option<Loc>, Nomination>

  /** How one call ends: `false` returned, `true` returned (stop-at reached), or a stale-data exception. */
  datatype Outcome = Continue | BoundaryReached | Outdated

  /** The output lists and the local pending pragma-once map, threaded through the walk. */
  datatype Acc = Acc(
    files: seq<VariantId>,
    macros: seq<Macro>,
    usingDirectives: seq<UsingDirective>,
    preLoaded: seq<VariantId>,
    pending: map<Loc, VariantId>)

  /** Result of a call: its outcome, the accumulators, and the recursion-guard set. */
  datatype Walk = Walk(outcome: Outcome, acc: Acc, guard: set<VariantId>)

  const EmptyAcc: Acc := Acc([], [], [], [], map[])

  /** The guard set a call works with: a `null` guard starts as a fresh empty set. */
  function GuardSet(guard: Option<set<VariantId>>): (g: set<VariantId>) {
    if guard.Some? then guard.value else {}
  }

  /** `b` is `a` with things appended to every list and entries added to the pending map. */
  predicate Extends(a: Acc, b: Acc) {
    && a.files <= b.files
    && a.macros <= b.macros
    && a.usingDirectives <= b.usingDirectives
    && a.preLoaded <= b.preLoaded
    && forall l :: l in a.pending ==> l in b.pending && b.pending[l] == a.pending[l]
  }

  /** Every file id appended from `a` to `b` names a variant of the index. */
  predicate AddedInArena(ix: Index, a: Acc, b: Acc)
    requires |a.files| <= |b.files| && |a.preLoaded| <= |b.preLoaded|
  {
    && (forall i :: |a.files| <= i < |b.files| ==> b.files[i] in ix.arena)
    && (forall i :: |a.preLoaded| <= i < |b.preLoaded| ==> b.preLoaded[i] in ix.arena)
  }

  /** The accumulators once a pragma-once variant `v` has claimed its location in the pending map. */
  function Nominated(v: Variant, id: VariantId, acc: Acc): (a: Acc) {
    if v.pragmaOnce then acc.(pending := acc.pending[v.location := id]) else acc
  }

  /**
   The accumulators once the entered variant `v` is appended to the files and,
   unless it has pragma-once semantics, added to the preloaded versions (a
   `LinkedHashSet`, so only on its first visit).
   */
  function Appended(v: Variant, id: VariantId, acc: Acc): (a: Acc) {
    acc.(files := acc.files + [id],
         preLoaded := if !v.pragmaOnce && id !in acc.preLoaded then acc.preLoaded + [id] else acc.preLoaded)
  }

  /** Adding an unguarded variant to the guard leaves fewer variants outside it. */
  lemma GuardShrinks(keys: set<VariantId>, g: set<VariantId>, id: VariantId)
    requires id in keys && id !in g
    ensures |keys - (g + {id})| < |keys - g|
  {
    assert keys - g == (keys - (g + {id})) + {id};
  }

  /** What `c` appended past `a` is what `b` appended past `a`, then what `c` appended past `b`. */
  lemma SplitTail<T>(a: seq<T>, b: seq<T>, c: seq<T>)
    requires a <= b <= c
    ensures c[|a|..] == b[|a|..] + c[|b|..]
  {
    assert forall i :: 0 <= i < |b| - |a| ==> b[|a|..][i] == c[|a| + i];
  }

  /** Claiming a free pending slot only adds that entry. */
  lemma NominatedExtends(ix: Index, v: Variant, id: VariantId, acc: Acc)
    requires v.location !in acc.pending
    ensures Extends(acc, Nominated(v, id, acc)) && AddedInArena(ix, acc, Nominated(v, id, acc))
    ensures Nominated(v, id, acc).(pending := acc.pending) == acc
  {
  }

  /** `Extends` and `AddedInArena` compose along a chain of accumulators. */
  lemma ExtendsChain(ix: Index, a: Acc, b: Acc, c: Acc)
    requires Extends(a, b) && AddedInArena(ix, a, b) && Extends(b, c) && AddedInArena(ix, b, c)
    ensures Extends(a, c) && AddedInArena(ix, a, c)
  {
  }

  /** The call gets past all of its early exits (stop-at, pending map, session map, guard set). */
  predicate Entered(env: Env, id: VariantId, stopAt: Option<VariantId>, session: Session,
                    acc: Acc, guard: Option<set<VariantId>>)
    requires id in env.index.arena
  {
    var loc := env.index.arena[id].location;
    && stopAt != Some(id)
    && loc !in acc.pending
    && !(guard.Some? && Some(loc) in session)
    && id !in GuardSet(guard)
  }

  /**
   The end of the run of not-yet-flushed using directives, from `udx` on, whose
   point of declaration is at most `offset`: the inner `for` loop of the walk.
   */
  function Advance(uds: seq<UsingDirective>, udx: nat, offset: int): (j: nat)
    requires udx <= |uds|
    ensures udx <= j <= |uds|
    ensures forall i :: udx <= i < j ==> uds[i].pointOfDeclaration <= offset
    ensures j == |uds| || uds[j].pointOfDeclaration > offset
    decreases |uds| - udx
  {
    if udx < |uds| && uds[udx].pointOfDeclaration <= offset then Advance(uds, udx + 1, offset)
    else udx
  }

  /** One call of `collectFileContent` on variant `id`: its early exits, then `Visit`. */
  function Collect(env: Env, id: VariantId, stopAt: Option<VariantId>, session: Session,
                   acc: Acc, guard: Option<set<VariantId>>): (w: Walk)
    requires id in env.index.arena
    ensures Extends(acc, w.acc) && AddedInArena(env.index, acc, w.acc)
    ensures w.outcome == Continue ==> w.guard == GuardSet(guard)
    ensures stopAt.None? ==> w.outcome != BoundaryReached
    ensures w.outcome == Outdated ==> env.task.Some?
    ensures stopAt == Some(id) ==> w.outcome == BoundaryReached && w.acc == acc
    ensures stopAt != Some(id) && env.index.arena[id].location in acc.pending ==>
      w.outcome == Continue && w.acc == acc
    ensures stopAt != Some(id) && env.index.arena[id].location !in acc.pending
            && !Entered(env, id, stopAt, session, acc, guard) ==>
      w.outcome == Continue && w.acc == Nominated(env.index.arena[id], id, acc)
    ensures Entered(env, id, stopAt, session, acc, guard) && w.outcome != Outdated ==>
      |acc.files| < |w.acc.files| && w.acc.files[|acc.files|] == id
    decreases |env.index.arena.Keys - GuardSet(guard)|, 1
  {
    var v := env.index.arena[id];
    if stopAt == Some(id) then Walk(BoundaryReached, acc, GuardSet(guard))
    else if v.location in acc.pending then Walk(Continue, acc, GuardSet(guard))
    else
      var acc1 := Nominated(v, id, acc);
      NominatedExtends(env.index, v, id, acc);
      if guard.Some? && Some(v.location) in session then Walk(Continue, acc1, guard.value)
      else if id in GuardSet(guard) then Walk(Continue, acc1, GuardSet(guard))
      else
        var w := Visit(env, id, stopAt, session, acc1, GuardSet(guard));
        ExtendsChain(env.index, acc, acc1, w.acc);
        w
  }

  /**
   The part of a call past its early exits: add `id` to the guard, fetch its
   content, append it to the files (and to the preloaded versions unless it has
   pragma-once semantics), walk its list, and on a normal end take it out of
   the guard again.
   */
  function Visit(env: Env, id: VariantId, stopAt: Option<VariantId>, session: Session,
                 acc: Acc, g: set<VariantId>): (w: Walk)
    requires id in env.index.arena && id !in g
    ensures Extends(acc, w.acc) && AddedInArena(env.index, acc, w.acc)
    ensures w.outcome == Continue ==> w.guard == g
    ensures stopAt.None? ==> w.outcome != BoundaryReached
    ensures w.outcome == Outdated ==> env.task.Some?
    ensures w.outcome != Outdated ==> |acc.files| < |w.acc.files| && w.acc.files[|acc.files|] == id
    decreases |env.index.arena.Keys - g|, 0
  {
    var g1 := g + {id};
    GuardShrinks(env.index.arena.Keys, g, id);
    match FetchContent(env, id)
    case DependsOnOutdated => Walk(Outdated, acc, g1)
    case Content(uds, pds) =>
      var acc1 := Appended(env.index.arena[id], id, acc);
      var w := CollectList(env, uds, pds, 0, 0, stopAt, session, acc1, g1);
      ExtendsChain(env.index, acc, acc1, w.acc);
      if w.outcome == Continue then w.(guard := w.guard - {id}) else w
  }

  /** The walk of a file's interleaved list from position `k`, with using directive `udx` next. */
  function CollectList(env: Env, uds: seq<UsingDirective>, pds: seq<Directive>, k: nat, udx: nat,
                       stopAt: Option<VariantId>, session: Session, acc: Acc,
                       guard: set<VariantId>): (w: Walk)
    requires k <= |pds| && udx <= |uds|
    ensures Extends(acc, w.acc) && AddedInArena(env.index, acc, w.acc)
    ensures w.outcome == Continue ==> w.guard == guard
    ensures stopAt.None? ==> w.outcome != BoundaryReached
    ensures w.outcome == Outdated ==> env.task.Some?
    decreases |env.index.arena.Keys - guard|, 2, |pds| - k
  {
    if k == |pds| then
      Walk(Continue, acc.(usingDirectives := acc.usingDirectives + uds[udx..]), guard)
    else
      match pds[k]
      case MacroDef(m) =>
        var acc1 := acc.(macros := acc.macros + [m]);
        var w := CollectList(env, uds, pds, k + 1, udx, stopAt, session, acc1, guard);
        ExtendsChain(env.index, acc, acc1, w.acc);
        w
      case Include(e) =>
        match Resolve(env.index, e)
        case None => CollectList(env, uds, pds, k + 1, udx, stopAt, session, acc, guard)
        case Some(t) =>
          var j := Advance(uds, udx, e.nameOffset);
          var acc1 := acc.(usingDirectives := acc.usingDirectives + uds[udx..j]);
          var n := Collect(env, t, stopAt, session, acc1, Some(guard));
          ExtendsChain(env.index, acc, acc1, n.acc);
          if n.outcome != Continue then n
          else
            var w := CollectList(env, uds, pds, k + 1, j, stopAt, session, n.acc, n.guard);
            ExtendsChain(env.index, acc, n.acc, w.acc);
            w
  }
}

=== FILE: walk_claims.dfy ===
/**
 What the pending map of a walk holds. Every pragma-once file the walk appends
 claims its own location, and every claimed location belongs either to a file
 the walk appended or to a nested include skipped because the session map
 already holds its location; the walk claims nothing else.
 */
module WalkClaims {
  import opened Wrappers
  import opened IndexModel
  import opened ContentWalk

  /** Every appended pragma-once file names itself under its location. */
  ghost predicate FilesClaimed(ix: Index, acc: Acc) {
    forall i :: 0 <= i < |acc.files| && acc.files[i] in ix.arena && ix.arena[acc.files[i]].pragmaOnce ==>
      ix.arena[acc.files[i]].location in acc.pending && acc.pending[ix.arena[acc.files[i]].location] == acc.files[i]
  }

  /** Every claimed location is that of an appended file, of `extra`, or one the session already holds. */
  ghost predicate ClaimsAccounted(acc: Acc, session: Session, extra: set<VariantId>) {
    forall l :: l in acc.pending ==>
      acc.pending[l] in acc.files || acc.pending[l] in extra || Some(l) in session
  }

  /** The pending map claims exactly what the appended files and the session account for. */
  ghost predicate ClaimsMatch(ix: Index, acc: Acc, session: Session) {
    FilesClaimed(ix, acc) && ClaimsAccounted(acc, session, {})
  }

  /** Every guarded variant has been appended already. */
  ghost predicate GuardAppended(guard: set<VariantId>, acc: Acc) {
    forall x :: x in guard ==> x in acc.files
  }

  /** Nominating a variant whose location is free keeps every appended file's claim. */
  lemma NominatedKeepsFilesClaimed(ix: Index, id: VariantId, acc: Acc)
    requires id in ix.arena && ix.arena[id].location !in acc.pending && FilesClaimed(ix, acc)
    ensures FilesClaimed(ix, Nominated(ix.arena[id], id, acc))
  {
  }

  /**
   A call that does not fail on stale data leaves a pending map that claims
   exactly the appended pragma-once files plus session-held locations.
   */
  lemma {:induction false} CollectClaimsMatch(env: Env, id: VariantId, stopAt: Option<VariantId>,
                                              session: Session, acc: Acc, guard: Option<set<VariantId>>)
    requires id in env.index.arena
    requires ClaimsMatch(env.index, acc, session) && GuardAppended(GuardSet(guard), acc)
    ensures var w := Collect(env, id, stopAt, session, acc, guard);
      w.outcome != Outdated ==> ClaimsMatch(env.index, w.acc, session)
    decreases |env.index.arena.Keys - GuardSet(guard)|, 1
  {
    var v := env.index.arena[id];
    if stopAt != Some(id) && v.location !in acc.pending {
      var acc1 := Nominated(v, id, acc);
      NominatedKeepsFilesClaimed(env.index, id, acc);
      if Entered(env, id, stopAt, session, acc, guard) {
        VisitClaimsMatch(env, id, stopAt, session, acc1, GuardSet(guard));
        assert Collect(env, id, stopAt, session, acc, guard) == Visit(env, id, stopAt, session, acc1, GuardSet(guard));
      } else {
        assert Collect(env, id, stopAt, session, acc, guard).acc == acc1;
      }
    }
  }

  /** Entering a nominated file: once it is appended, its own claim is accounted for. */
  lemma {:induction false} VisitClaimsMatch(env: Env, id: VariantId, stopAt: Option<VariantId>,
                                            session: Session, acc: Acc, g: set<VariantId>)
    requires id in env.index.arena && id !in g
    requires FilesClaimed(env.index, acc) && ClaimsAccounted(acc, session, {id}) && GuardAppended(g, acc)
    requires env.index.arena[id].pragmaOnce ==>
      env.index.arena[id].location in acc.pending && acc.pending[env.index.arena[id].location] == id
    ensures var w := Visit(env, id, stopAt, session, acc, g);
      w.outcome != Outdated ==> ClaimsMatch(env.index, w.acc, session)
    decreases |env.index.arena.Keys - g|, 0
  {
    var v := env.index.arena[id];
    var g1 := g + {id};
    GuardShrinks(env.index.arena.Keys, g, id);
    match FetchContent(env, id)
    case DependsOnOutdated =>
    case Content(uds, pds) =>
      var acc1 := Appended(v, id, acc);
      assert acc1.files == acc.files + [id];
      ListClaimsMatch(env, uds, pds, 0, 0, stopAt, session, acc1, g1);
      assert Visit(env, id, stopAt, session, acc, g).acc
          == CollectList(env, uds, pds, 0, 0, stopAt, session, acc1, g1).acc;
  }

  /** The walk of an interleaved list keeps the pending map matched to its files and the session. */
  lemma {:induction false} ListClaimsMatch(env: Env, uds: seq<UsingDirective>, pds: seq<Directive>,
                                           k: nat, udx: nat, stopAt: Option<VariantId>,
                                           session: Session, acc: Acc, guard: set<VariantId>)
    requires k <= |pds| && udx <= |uds|
    requires ClaimsMatch(env.index, acc, session) && GuardAppended(guard, acc)
    ensures var w := CollectList(env, uds, pds, k, udx, stopAt, session, acc, guard);
      w.outcome != Outdated ==> ClaimsMatch(env.index, w.acc, session)
    decreases |env.index.arena.Keys - guard|, 2, |pds| - k
  {
    if k < |pds| {
      match pds[k]
      case MacroDef(m) =>
        var acc1 := acc.(macros := acc.macros + [m]);
        ListClaimsMatch(env, uds, pds, k + 1, udx, stopAt, session, acc1, guard);
        assert CollectList(env, uds, pds, k, udx, stopAt, session, acc, guard)
            == CollectList(env, uds, pds, k + 1, udx, stopAt, session, acc1, guard);
      case Include(e) =>
        match Resolve(env.index, e)
        case None =>
          ListClaimsMatch(env, uds, pds, k + 1, udx, stopAt, session, acc, guard);
          assert CollectList(env, uds, pds, k, udx, stopAt, session, acc, guard)
              == CollectList(env, uds, pds, k + 1, udx, stopAt, session, acc, guard);
        case Some(t) =>
          var j := Advance(uds, udx, e.nameOffset);
          var acc1 := acc.(usingDirectives := acc.usingDirectives + uds[udx..j]);
          CollectClaimsMatch(env, t, stopAt, session, acc1, Some(guard));
          var n := Collect(env, t, stopAt, session, acc1, Some(guard));
          if n.outcome == Continue {
            ListClaimsMatch(env, uds, pds, k + 1, j, stopAt, session, n.acc, n.guard);
          }
          IncludeStepClaims(env, uds, pds, k, udx, stopAt, session, acc, guard);
    }
  }

  /** A resolved include: the nested call and then the rest of the list keep the claims matched. */
  lemma IncludeStepClaims(env: Env, uds: seq<UsingDirective>, pds: seq<Directive>,
                          k: nat, udx: nat, stopAt: Option<VariantId>,
                          session: Session, acc: Acc, guard: set<VariantId>)
    requires k < |pds| && udx <= |uds| && pds[k].Include? && Resolve(env.index, pds[k].edge).Some?
    requires var t := Resolve(env.index, pds[k].edge).value;
      var j := Advance(uds, udx, pds[k].edge.nameOffset);
      var acc1 := acc.(usingDirectives := acc.usingDirectives + uds[udx..j]);
      var n := Collect(env, t, stopAt, session, acc1, Some(guard));
      && (n.outcome != Outdated ==> ClaimsMatch(env.index, n.acc, session))
      && (n.outcome == Continue ==>
            var w := CollectList(env, uds, pds, k + 1, j, stopAt, session, n.acc, n.guard);
            w.outcome != Outdated ==> ClaimsMatch(env.index, w.acc, session))
    ensures var w := CollectList(env, uds, pds, k, udx, stopAt, session, acc, guard);
      w.outcome != Outdated ==> ClaimsMatch(env.index, w.acc, session)
  {
    var e := pds[k].edge;
    var t := Resolve(env.index, e).value;
    var j := Advance(uds, udx, e.nameOffset);
    var acc1 := acc.(usingDirectives := acc.usingDirectives + uds[udx..j]);
    var n := Collect(env, t, stopAt, session, acc1, Some(guard));
    if n.outcome != Continue {
      assert CollectList(env, uds, pds, k, udx, stopAt, session, acc, guard) == n;
    } else {
      assert CollectList(env, uds, pds, k, udx, stopAt, session, acc, guard)
          == CollectList(env, uds, pds, k + 1, j, stopAt, session, n.acc, n.guard);
    }
  }
}

=== FILE: walk_guard.dfy ===
/**
 The recursion guard: a variant that is on the active chain of nested calls
 (in the guard set a call is given) is never appended to the files again by
 that call or by anything it calls.
 */
module WalkGuard {
  import opened Wrappers
  import opened IndexModel
  import opened ContentWalk

  /**
   A call never appends a variant of the guard set it is given, and a file it
   enters is not appended again below it.
   */
  lemma {:induction false} CollectSkipsGuarded(env: Env, id: VariantId, stopAt: Option<VariantId>,
                                               session: Session, acc: Acc, guard: Option<set<VariantId>>)
    requires id in env.index.arena
    ensures var w := Collect(env, id, stopAt, session, acc, guard);
      && (forall x :: x in GuardSet(guard) ==> x !in w.acc.files[|acc.files|..])
      && (Entered(env, id, stopAt, session, acc, guard) && w.outcome != Outdated ==>
            id !in w.acc.files[|acc.files| + 1..])
    decreases |env.index.arena.Keys - GuardSet(guard)|, 1
  {
    var v := env.index.arena[id];
    if Entered(env, id, stopAt, session, acc, guard) {
      var acc1 := Nominated(v, id, acc);
      VisitSkipsGuarded(env, id, stopAt, session, acc1, GuardSet(guard));
    } else {
      assert Collect(env, id, stopAt, session, acc, guard).acc.files == acc.files;
    }
  }

  /** An entered file sits in the guard while its list is walked, so it is appended once, first. */
  lemma {:induction false} VisitSkipsGuarded(env: Env, id: VariantId, stopAt: Option<VariantId>,
                                             session: Session, acc: Acc, g: set<VariantId>)
    requires id in env.index.arena && id !in g
    ensures var w := Visit(env, id, stopAt, session, acc, g);
      && (forall x :: x in g ==> x !in w.acc.files[|acc.files|..])
      && (w.outcome != Outdated ==> id !in w.acc.files[|acc.files| + 1..])
    decreases |env.index.arena.Keys - g|, 0
  {
    var v := env.index.arena[id];
    var g1 := g + {id};
    GuardShrinks(env.index.arena.Keys, g, id);
    match FetchContent(env, id)
    case DependsOnOutdated =>
    case Content(uds, pds) =>
      var acc1 := Appended(v, id, acc);
      ListSkipsGuarded(env, uds, pds, 0, 0, stopAt, session, acc1, g1);
      var w := CollectList(env, uds, pds, 0, 0, stopAt, session, acc1, g1);
      assert Visit(env, id, stopAt, session, acc, g).acc == w.acc;
      SplitTail(acc.files, acc1.files, w.acc.files);
      assert acc1.files[|acc.files|..] == [id];
  }

  /** The walk of a list never appends a variant of the guard set it is given. */
  lemma {:induction false} ListSkipsGuarded(env: Env, uds: seq<UsingDirective>, pds: seq<Directive>,
                                            k: nat, udx: nat, stopAt: Option<VariantId>,
                                            session: Session, acc: Acc, guard: set<VariantId>)
    requires k <= |pds| && udx <= |uds|
    ensures var w := CollectList(env, uds, pds, k, udx, stopAt, session, acc, guard);
      forall x :: x in guard ==> x !in w.acc.files[|acc.files|..]
    decreases |env.index.arena.Keys - guard|, 2, |pds| - k
  {
    if k == |pds| {
      assert CollectList(env, uds, pds, k, udx, stopAt, session, acc, guard).acc.files == acc.files;
    } else {
      match pds[k]
      case MacroDef(m) =>
        ListSkipsGuarded(env, uds, pds, k + 1, udx, stopAt, session, acc.(macros := acc.macros + [m]), guard);
      case Include(e) =>
        match Resolve(env.index, e)
        case None =>
          ListSkipsGuarded(env, uds, pds, k + 1, udx, stopAt, session, acc, guard);
        case Some(t) =>
          var j := Advance(uds, udx, e.nameOffset);
          var acc1 := acc.(usingDirectives := acc.usingDirectives + uds[udx..j]);
          CollectSkipsGuarded(env, t, stopAt, session, acc1, Some(guard));
          var n := Collect(env, t, stopAt, session, acc1, Some(guard));
          if n.outcome == Continue {
            ListSkipsGuarded(env, uds, pds, k + 1, j, stopAt, session, n.acc, n.guard);
            var w := CollectList(env, uds, pds, k + 1, j, stopAt, session, n.acc, n.guard);
            SplitTail(acc.files, n.acc.files, w.acc.files);
          }
    }
  }
}

=== FILE: walk_invariants.dfy ===
/**
 What a walk keeps invariant about its accumulators: pragma-once files are
 appended at most once per location, every pragma-once file appended is in the
 pending map, the preloaded versions are exactly the first visits of the
 non-pragma-once files, and the stop-at variant is never appended.
 */
module WalkInvariants {
  import opened Wrappers
  import opened IndexModel
  import opened ContentWalk

  /** `s` without repetitions, each element at its first position: a `LinkedHashSet` fed with `s`. */
  function FirstVisits<T(==)>(s: seq<T>): (f: seq<T>)
    decreases |s|
  {
    if |s| == 0 then []
    else
      var p := FirstVisits(s[..|s| - 1]);
      if s[|s| - 1] in s[..|s| - 1] then p else p + [s[|s| - 1]]
  }

  predicate NoDuplicates<T(==)>(s: seq<T>) {
    forall i, j :: 0 <= i < j < |s| ==> s[i] != s[j]
  }

  predicate AllInArena(ix: Index, s: seq<VariantId>) {
    forall i :: 0 <= i < |s| ==> s[i] in ix.arena
  }

  /** The files of `s` that lack pragma-once semantics, in order. */
  function NonOnce(ix: Index, s: seq<VariantId>): (n: seq<VariantId>)
    requires AllInArena(ix, s)
    decreases |s|
  {
    if |s| == 0 then []
    else NonOnce(ix, s[..|s| - 1]) + (if ix.arena[s[|s| - 1]].pragmaOnce then [] else [s[|s| - 1]])
  }

  /** No two pragma-once files of `s` share a location. */
  predicate OnceLocationsDistinct(ix: Index, s: seq<VariantId>)
    requires AllInArena(ix, s)
  {
    forall i, j :: 0 <= i < j < |s| && ix.arena[s[i]].pragmaOnce && ix.arena[s[j]].pragmaOnce ==>
      ix.arena[s[i]].location != ix.arena[s[j]].location
  }

  /** The accumulator invariant of the walk. */
  predicate WellFormedAcc(ix: Index, acc: Acc) {
    && AllInArena(ix, acc.files)
    && (forall i :: 0 <= i < |acc.files| && ix.arena[acc.files[i]].pragmaOnce ==>
          ix.arena[acc.files[i]].location in acc.pending)
    && OnceLocationsDistinct(ix, acc.files)
    && acc.preLoaded == FirstVisits(NonOnce(ix, acc.files))
  }

  lemma {:induction false} FirstVisitsMembers<T>(s: seq<T>)
    ensures forall x :: x in FirstVisits(s) <==> x in s
    decreases |s|
  {
    if |s| > 0 {
      FirstVisitsMembers(s[..|s| - 1]);
      assert s == s[..|s| - 1] + [s[|s| - 1]];
    }
  }

  lemma {:induction false} FirstVisitsNoDuplicates<T>(s: seq<T>)
    ensures NoDuplicates(FirstVisits(s))
    decreases |s|
  {
    if |s| > 0 {
      FirstVisitsNoDuplicates(s[..|s| - 1]);
      FirstVisitsMembers(s[..|s| - 1]);
    }
  }

  lemma FirstVisitsSnoc<T>(s: seq<T>, x: T)
    ensures FirstVisits(s + [x]) == if x in s then FirstVisits(s) else FirstVisits(s) + [x]
  {
    assert (s + [x])[..|s|] == s;
  }

  lemma NonOnceSnoc(ix: Index, s: seq<VariantId>, x: VariantId)
    requires AllInArena(ix, s) && x in ix.arena
    ensures AllInArena(ix, s + [x])
    ensures NonOnce(ix, s + [x]) == NonOnce(ix, s) + (if ix.arena[x].pragmaOnce then [] else [x])
  {
    assert (s + [x])[..|s|] == s;
  }

  /** The preloaded list of a well-formed accumulator: duplicate-free, and exactly its non-pragma-once files. */
  lemma {:induction false} PreLoadedIsNonOnceFiles(ix: Index, acc: Acc)
    requires WellFormedAcc(ix, acc)
    ensures NoDuplicates(acc.preLoaded)
    ensures forall f :: f in acc.preLoaded <==> f in acc.files && !ix.arena[f].pragmaOnce
  {
    FirstVisitsNoDuplicates(NonOnce(ix, acc.files));
    FirstVisitsMembers(NonOnce(ix, acc.files));
    NonOnceMembers(ix, acc.files);
  }

  lemma {:induction false} NonOnceMembers(ix: Index, s: seq<VariantId>)
    requires AllInArena(ix, s)
    ensures forall f :: f in NonOnce(ix, s) <==> f in s && !ix.arena[f].pragmaOnce
    decreases |s|
  {
    if |s| > 0 {
      NonOnceMembers(ix, s[..|s| - 1]);
      assert s == s[..|s| - 1] + [s[|s| - 1]];
    }
  }

  /** A variant about to be appended: if it has pragma-once semantics, its location is pending and new. */
  predicate OnceSlotFree(ix: Index, acc: Acc, id: VariantId)
    requires id in ix.arena && AllInArena(ix, acc.files)
  {
    ix.arena[id].pragmaOnce ==>
      && ix.arena[id].location in acc.pending
      && forall i :: 0 <= i < |acc.files| && ix.arena[acc.files[i]].pragmaOnce ==>
           ix.arena[acc.files[i]].location != ix.arena[id].location
  }

  /** Pending entries only ever get added, so a well-formed accumulator stays one when they do. */
  lemma PendingGrowthKeepsWellFormed(ix: Index, acc: Acc, pending: map<Loc, VariantId>)
    requires WellFormedAcc(ix, acc) && acc.pending.Keys <= pending.Keys
    ensures WellFormedAcc(ix, acc.(pending := pending))
  {
  }

  /** Appending a variant as `Visit` does keeps the invariant. */
  lemma AppendKeepsWellFormed(ix: Index, acc: Acc, id: VariantId)
    requires id in ix.arena && WellFormedAcc(ix, acc) && OnceSlotFree(ix, acc, id)
    ensures WellFormedAcc(ix, Appended(ix.arena[id], id, acc))
  {
    var files := acc.files + [id];
    AppendKeepsOnceDistinct(ix, acc, id);
    AppendKeepsFirstVisits(ix, acc, id);
    assert forall i :: 0 <= i < |files| && ix.arena[files[i]].pragmaOnce ==>
      ix.arena[files[i]].location in acc.pending by {
      forall i | 0 <= i < |files| && ix.arena[files[i]].pragmaOnce
        ensures ix.arena[files[i]].location in acc.pending
      {
        if i < |acc.files| { assert files[i] == acc.files[i]; }
      }
    }
  }

  lemma AppendKeepsOnceDistinct(ix: Index, acc: Acc, id: VariantId)
    requires id in ix.arena && WellFormedAcc(ix, acc) && OnceSlotFree(ix, acc, id)
    ensures AllInArena(ix, acc.files + [id]) && OnceLocationsDistinct(ix, acc.files + [id])
  {
    var files := acc.files + [id];
    forall i, j | 0 <= i < j < |files| && ix.arena[files[i]].pragmaOnce && ix.arena[files[j]].pragmaOnce
      ensures ix.arena[files[i]].location != ix.arena[files[j]].location
    {
      assert files[i] == acc.files[i];
      if j < |acc.files| { assert files[j] == acc.files[j]; }
    }
  }

  lemma AppendKeepsFirstVisits(ix: Index, acc: Acc, id: VariantId)
    requires id in ix.arena && AllInArena(ix, acc.files)
    requires acc.preLoaded == FirstVisits(NonOnce(ix, acc.files))
    ensures AllInArena(ix, acc.files + [id])
    ensures Appended(ix.arena[id], id, acc).preLoaded == FirstVisits(NonOnce(ix, acc.files + [id]))
  {
    var n := NonOnce(ix, acc.files);
    NonOnceSnoc(ix, acc.files, id);
    if !ix.arena[id].pragmaOnce {
      assert NonOnce(ix, acc.files + [id]) == n + [id];
      FirstVisitsSnoc(n, id);
      FirstVisitsMembers(n);
      assert id in acc.preLoaded <==> id in n;
    } else {
      assert NonOnce(ix, acc.files + [id]) == n + [] == n;
    }
  }

  lemma {:induction false} CollectKeepsWellFormed(env: Env, id: VariantId, stopAt: Option<VariantId>,
                                                  session: Session, acc: Acc, guard: Option<set<VariantId>>)
    requires id in env.index.arena && WellFormedAcc(env.index, acc)
    ensures var w := Collect(env, id, stopAt, session, acc, guard);
      && WellFormedAcc(env.index, w.acc)
      && (stopAt.Some? && stopAt.value !in acc.files ==> stopAt.value !in w.acc.files)
    decreases |env.index.arena.Keys - GuardSet(guard)|, 1
  {
    var ix := env.index;
    var v := ix.arena[id];
    if stopAt != Some(id) && v.location !in acc.pending {
      var acc1 := Nominated(v, id, acc);
      PendingGrowthKeepsWellFormed(ix, acc, acc1.pending);
      if !(guard.Some? && Some(v.location) in session) && id !in GuardSet(guard) {
        VisitKeepsWellFormed(env, id, stopAt, session, acc1, GuardSet(guard));
      }
    }
  }

  lemma {:induction false} VisitKeepsWellFormed(env: Env, id: VariantId, stopAt: Option<VariantId>,
                                                session: Session, acc: Acc, g: set<VariantId>)
    requires id in env.index.arena && id !in g && WellFormedAcc(env.index, acc)
    requires OnceSlotFree(env.index, acc, id)
    requires stopAt != Some(id)
    ensures var w := Visit(env, id, stopAt, session, acc, g);
      && WellFormedAcc(env.index, w.acc)
      && (stopAt.Some? && stopAt.value !in acc.files ==> stopAt.value !in w.acc.files)
    decreases |env.index.arena.Keys - g|, 0
  {
    var ix := env.index;
    var v := ix.arena[id];
    var g1 := g + {id};
    GuardShrinks(ix.arena.Keys, g, id);
    match FetchContent(env, id)
    case DependsOnOutdated =>
    case Content(uds, pds) =>
      var acc1 := Appended(v, id, acc);
      AppendKeepsWellFormed(ix, acc, id);
      CollectListKeepsWellFormed(env, uds, pds, 0, 0, stopAt, session, acc1, g1);
  }

  lemma {:induction false} CollectListKeepsWellFormed(env: Env, uds: seq<UsingDirective>, pds: seq<Directive>,
                                                      k: nat, udx: nat, stopAt: Option<VariantId>,
                                                      session: Session, acc: Acc, guard: set<VariantId>)
    requires k <= |pds| && udx <= |uds| && WellFormedAcc(env.index, acc)
    ensures var w := CollectList(env, uds, pds, k, udx, stopAt, session, acc, guard);
      && WellFormedAcc(env.index, w.acc)
      && (stopAt.Some? && stopAt.value !in acc.files ==> stopAt.value !in w.acc.files)
    decreases |env.index.arena.Keys - guard|, 2, |pds| - k
  {
    if k < |pds| {
      match pds[k]
      case MacroDef(m) =>
        CollectListKeepsWellFormed(env, uds, pds, k + 1, udx, stopAt, session,
                                   acc.(macros := acc.macros + [m]), guard);
      case Include(e) =>
        match Resolve(env.index, e)
        case None =>
          CollectListKeepsWellFormed(env, uds, pds, k + 1, udx, stopAt, session, acc, guard);
        case Some(t) =>
          var j := Advance(uds, udx, e.nameOffset);
          var acc1 := acc.(usingDirectives := acc.usingDirectives + uds[udx..j]);
          assert WellFormedAcc(env.index, acc1) && acc1.files == acc.files;
          CollectKeepsWellFormed(env, t, stopAt, session, acc1, Some(guard));
          var n := Collect(env, t, stopAt, session, acc1, Some(guard));
          if n.outcome == Continue {
            CollectListKeepsWellFormed(env, uds, pds, k + 1, j, stopAt, session, n.acc, n.guard);
            assert CollectList(env, uds, pds, k, udx, stopAt, session, acc, guard)
                == CollectList(env, uds, pds, k + 1, j, stopAt, session, n.acc, n.guard);
          } else {
            assert CollectList(env, uds, pds, k, udx, stopAt, session, acc, guard) == n;
          }
    }
  }

  /**
   A walk started with empty accumulators, as both callers start it: each
   pragma-once location is appended at most once, the preloaded versions are
   the non-pragma-once files visited, without duplicates and in first-visit
   order, and the stop-at variant is never appended.
   */
  lemma FreshWalkInvariants(env: Env, id: VariantId, stopAt: Option<VariantId>, session: Session,
                            guard: Option<set<VariantId>>)
    requires id in env.index.arena
    ensures var w := Collect(env, id, stopAt, session, EmptyAcc, guard);
      && AllInArena(env.index, w.acc.files)
      && OnceLocationsDistinct(env.index, w.acc.files)
      && (forall i :: 0 <= i < |w.acc.files| && env.index.arena[w.acc.files[i]].pragmaOnce ==>
            env.index.arena[w.acc.files[i]].location in w.acc.pending)
      && w.acc.preLoaded == FirstVisits(NonOnce(env.index, w.acc.files))
      && NoDuplicates(w.acc.preLoaded)
      && (forall f :: f in w.acc.preLoaded <==> f in w.acc.files && !env.index.arena[f].pragmaOnce)
      && (stopAt.Some? ==> stopAt.value !in w.acc.files)
  {
    CollectKeepsWellFormed(env, id, stopAt, session, EmptyAcc, guard);
    PreLoadedIsNonOnceFiles(env.index, Collect(env, id, stopAt, session, EmptyAcc, guard).acc);
  }
}

=== FILE: walk_once.dfy ===
/**
 Include-once across the walk. Once a location is claimed, no file at that
 location is appended again: below a call, every appended file lies outside the
 pending map the call was given and, below the call's own file or anywhere in a
 nested call, outside the committed session map.
 */
module WalkOnce {
  import opened Wrappers
  import opened IndexModel
  import opened ContentWalk

  /** Every file of `files` from position `from` on is a variant whose location neither `pending` nor `session` claims. */
  ghost predicate Unclaimed(ix: Index, files: seq<VariantId>, from: nat, pending: map<Loc, VariantId>, session: Session)
  {
    forall i :: from <= i < |files| ==>
      && files[i] in ix.arena
      && ix.arena[files[i]].location !in pending
      && Some(ix.arena[files[i]].location) !in session
  }

  /** Two unclaimed stretches, the later one checked against a larger pending map, make one. */
  lemma UnclaimedJoin(ix: Index, a: seq<VariantId>, b: seq<VariantId>, from: nat,
                      p: map<Loc, VariantId>, q: map<Loc, VariantId>, session: Session)
    requires a <= b && from <= |a| && p.Keys <= q.Keys
    requires Unclaimed(ix, a, from, p, session) && Unclaimed(ix, b, |a|, q, session)
    ensures Unclaimed(ix, b, from, p, session)
  {
    forall i | from <= i < |b|
      ensures b[i] in ix.arena && ix.arena[b[i]].location !in p && Some(ix.arena[b[i]].location) !in session
    {
      if i < |a| {
        assert b[i] == a[i];
      }
    }
  }

  /** An unclaimed first file in front of an unclaimed rest. */
  lemma UnclaimedCons(ix: Index, files: seq<VariantId>, from: nat, pending: map<Loc, VariantId>, session: Session)
    requires Unclaimed(ix, files, from + 1, pending, session)
    requires from < |files| ==>
      files[from] in ix.arena && ix.arena[files[from]].location !in pending
      && Some(ix.arena[files[from]].location) !in session
    ensures Unclaimed(ix, files, from, pending, session)
  {
  }

  /**
   A call appends nothing whose location is pending when it starts; the file it
   enters comes first, and every later file, like the entered file itself in a
   nested call, also lies outside the session map.
   */
  lemma {:induction false} CollectAppendsUnclaimed(env: Env, id: VariantId, stopAt: Option<VariantId>,
                                                   session: Session, acc: Acc, guard: Option<set<VariantId>>)
    requires id in env.index.arena
    ensures var w := Collect(env, id, stopAt, session, acc, guard);
      var loc := env.index.arena[id].location;
      && Unclaimed(env.index, w.acc.files, |acc.files| + 1, acc.pending, session)
      && (|w.acc.files| > |acc.files| ==>
            && w.acc.files[|acc.files|] == id && loc !in acc.pending
            && (guard.Some? ==> Some(loc) !in session))
    decreases |env.index.arena.Keys - GuardSet(guard)|, 1
  {
    var v := env.index.arena[id];
    if Entered(env, id, stopAt, session, acc, guard) {
      var acc1 := Nominated(v, id, acc);
      VisitAppendsUnclaimed(env, id, stopAt, session, acc1, GuardSet(guard));
      assert Collect(env, id, stopAt, session, acc, guard) == Visit(env, id, stopAt, session, acc1, GuardSet(guard));
    } else {
      assert Collect(env, id, stopAt, session, acc, guard).acc.files == acc.files;
    }
  }

  /** The entered file comes first; nothing after it is claimed by the pending map or the session. */
  lemma {:induction false} VisitAppendsUnclaimed(env: Env, id: VariantId, stopAt: Option<VariantId>,
                                                 session: Session, acc: Acc, g: set<VariantId>)
    requires id in env.index.arena && id !in g
    ensures var w := Visit(env, id, stopAt, session, acc, g);
      && Unclaimed(env.index, w.acc.files, |acc.files| + 1, acc.pending, session)
      && (|w.acc.files| > |acc.files| ==> w.acc.files[|acc.files|] == id)
    decreases |env.index.arena.Keys - g|, 0
  {
    var v := env.index.arena[id];
    var g1 := g + {id};
    GuardShrinks(env.index.arena.Keys, g, id);
    match FetchContent(env, id)
    case DependsOnOutdated =>
    case Content(uds, pds) =>
      var acc1 := Appended(v, id, acc);
      ListAppendsUnclaimed(env, uds, pds, 0, 0, stopAt, session, acc1, g1);
      var w := CollectList(env, uds, pds, 0, 0, stopAt, session, acc1, g1);
      assert Visit(env, id, stopAt, session, acc, g).acc == w.acc;
      assert w.acc.files[|acc.files|] == acc1.files[|acc.files|];
  }

  /** Every file that the walk of a list appends, nested calls included, is unclaimed. */
  lemma {:induction false} ListAppendsUnclaimed(env: Env, uds: seq<UsingDirective>, pds: seq<Directive>,
                                                k: nat, udx: nat, stopAt: Option<VariantId>,
                                                session: Session, acc: Acc, guard: set<VariantId>)
    requires k <= |pds| && udx <= |uds|
    ensures var w := CollectList(env, uds, pds, k, udx, stopAt, session, acc, guard);
      Unclaimed(env.index, w.acc.files, |acc.files|, acc.pending, session)
    decreases |env.index.arena.Keys - guard|, 2, |pds| - k
  {
    if k == |pds| {
      assert CollectList(env, uds, pds, k, udx, stopAt, session, acc, guard).acc.files == acc.files;
    } else {
      match pds[k]
      case MacroDef(m) =>
        var acc1 := acc.(macros := acc.macros + [m]);
        ListAppendsUnclaimed(env, uds, pds, k + 1, udx, stopAt, session, acc1, guard);
        assert CollectList(env, uds, pds, k, udx, stopAt, session, acc, guard)
            == CollectList(env, uds, pds, k + 1, udx, stopAt, session, acc1, guard);
      case Include(e) =>
        match Resolve(env.index, e)
        case None =>
          ListAppendsUnclaimed(env, uds, pds, k + 1, udx, stopAt, session, acc, guard);
          assert CollectList(env, uds, pds, k, udx, stopAt, session, acc, guard)
              == CollectList(env, uds, pds, k + 1, udx, stopAt, session, acc, guard);
        case Some(t) =>
          var j := Advance(uds, udx, e.nameOffset);
          var acc1 := acc.(usingDirectives := acc.usingDirectives + uds[udx..j]);
          CollectAppendsUnclaimed(env, t, stopAt, session, acc1, Some(guard));
          var n := Collect(env, t, stopAt, session, acc1, Some(guard));
          if n.outcome == Continue {
            ListAppendsUnclaimed(env, uds, pds, k + 1, j, stopAt, session, n.acc, n.guard);
          }
          IncludeStepUnclaimed(env, uds, pds, k, udx, stopAt, session, acc, guard);
    }
  }

  /** A resolved include: the nested call's files and then the rest of the list's are unclaimed. */
  lemma IncludeStepUnclaimed(env: Env, uds: seq<UsingDirective>, pds: seq<Directive>,
                             k: nat, udx: nat, stopAt: Option<VariantId>,
                             session: Session, acc: Acc, guard: set<VariantId>)
    requires k < |pds| && udx <= |uds| && pds[k].Include? && Resolve(env.index, pds[k].edge).Some?
    requires var t := Resolve(env.index, pds[k].edge).value;
      var j := Advance(uds, udx, pds[k].edge.nameOffset);
      var acc1 := acc.(usingDirectives := acc.usingDirectives + uds[udx..j]);
      var n := Collect(env, t, stopAt, session, acc1, Some(guard));
      && Unclaimed(env.index, n.acc.files, |acc.files| + 1, acc.pending, session)
      && (|n.acc.files| > |acc.files| ==>
            && n.acc.files[|acc.files|] == t && env.index.arena[t].location !in acc.pending
            && Some(env.index.arena[t].location) !in session)
      && (n.outcome == Continue ==>
            Unclaimed(env.index, CollectList(env, uds, pds, k + 1, j, stopAt, session, n.acc, n.guard).acc.files,
                      |n.acc.files|, n.acc.pending, session))
    ensures var w := CollectList(env, uds, pds, k, udx, stopAt, session, acc, guard);
      Unclaimed(env.index, w.acc.files, |acc.files|, acc.pending, session)
  {
    var e := pds[k].edge;
    var t := Resolve(env.index, e).value;
    var j := Advance(uds, udx, e.nameOffset);
    var acc1 := acc.(usingDirectives := acc.usingDirectives + uds[udx..j]);
    var n := Collect(env, t, stopAt, session, acc1, Some(guard));
    UnclaimedCons(env.index, n.acc.files, |acc.files|, acc.pending, session);
    if n.outcome != Continue {
      assert CollectList(env, uds, pds, k, udx, stopAt, session, acc, guard) == n;
    } else {
      var w := CollectList(env, uds, pds, k + 1, j, stopAt, session, n.acc, n.guard);
      assert CollectList(env, uds, pds, k, udx, stopAt, session, acc, guard) == w;
      UnclaimedJoin(env.index, n.acc.files, w.acc.files, |acc.files|, acc.pending, n.acc.pending, session);
    }
  }
}

=== FILE: walk_order.dfy ===
/**
 Ordering properties of the walk. A file's own using directives and macros come
 out in chunks, one chunk before each resolved include and one after the last,
 and the output of the nested call for the i-th resolved include sits exactly
 between chunk i and chunk i + 1. Flattening the chunks gives back every using
 directive once, in order, and every macro once, in source order.
 */
module WalkOrder {
  import opened Wrappers
  import opened IndexModel
  import opened ContentWalk

  predicate SortedByDeclaration(uds: seq<UsingDirective>) {
    forall a, b :: 0 <= a < b < |uds| ==> uds[a].pointOfDeclaration <= uds[b].pointOfDeclaration
  }

  /**
   With the using directives sorted by point of declaration, the flush before
   an include leaves behind only directives declared after its name offset.
   */
  lemma AdvanceFlushesAllEarlier(uds: seq<UsingDirective>, udx: nat, offset: int)
    requires udx <= |uds| && SortedByDeclaration(uds)
    ensures forall i :: Advance(uds, udx, offset) <= i < |uds| ==> uds[i].pointOfDeclaration > offset
  {
    var j := Advance(uds, udx, offset);
    if j < |uds| {
      forall i | j <= i < |uds|
        ensures uds[i].pointOfDeclaration > offset
      {
        assert uds[j].pointOfDeclaration <= uds[i].pointOfDeclaration;
      }
    }
  }

  /** The file's own using directives in the chunks the walk flushes them in. */
  function UsingChunks(ix: Index, uds: seq<UsingDirective>, pds: seq<Directive>, k: nat, udx: nat)
    : (c: seq<seq<UsingDirective>>)
    requires k <= |pds| && udx <= |uds|
    ensures |c| == 1 + ResolvedFrom(ix, pds, k)
    decreases |pds| - k
  {
    if k == |pds| then [uds[udx..]]
    else
      match pds[k]
      case MacroDef(_) => UsingChunks(ix, uds, pds, k + 1, udx)
      case Include(e) =>
        if Resolve(ix, e).Some? then
          var j := Advance(uds, udx, e.nameOffset);
          [uds[udx..j]] + UsingChunks(ix, uds, pds, k + 1, j)
        else UsingChunks(ix, uds, pds, k + 1, udx)
  }

  /** The file's own macros, cut at every resolved include. */
  function MacroChunks(ix: Index, pds: seq<Directive>, k: nat): (c: seq<seq<Macro>>)
    requires k <= |pds|
    ensures |c| == 1 + ResolvedFrom(ix, pds, k)
    decreases |pds| - k
  {
    if k == |pds| then [[]]
    else
      var rest := MacroChunks(ix, pds, k + 1);
      match pds[k]
      case MacroDef(m) => [[m] + rest[0]] + rest[1..]
      case Include(e) => if Resolve(ix, e).Some? then [[]] + rest else rest
  }

  /** The macros of the interleaved list from position `k`, in source order. */
  function MacrosFrom(pds: seq<Directive>, k: nat): (ms: seq<Macro>)
    requires k <= |pds|
    decreases |pds| - k
  {
    if k == |pds| then []
    else (if pds[k].MacroDef? then [pds[k].macro] else []) + MacrosFrom(pds, k + 1)
  }

  /** The number of includes from position `k` that the index resolves. */
  function ResolvedFrom(ix: Index, pds: seq<Directive>, k: nat): (n: nat)
    requires k <= |pds|
    decreases |pds| - k
  {
    if k == |pds| then 0
    else (if pds[k].Include? && Resolve(ix, pds[k].edge).Some? then 1 else 0) + ResolvedFrom(ix, pds, k + 1)
  }

  /** The name offsets of the includes from position `k` that the index resolves, in list order. */
  function ResolvedOffsets(ix: Index, pds: seq<Directive>, k: nat): (o: seq<int>)
    requires k <= |pds|
    ensures |o| == ResolvedFrom(ix, pds, k)
    decreases |pds| - k
  {
    if k == |pds| then []
    else if pds[k].Include? && Resolve(ix, pds[k].edge).Some? then
      [pds[k].edge.nameOffset] + ResolvedOffsets(ix, pds, k + 1)
    else ResolvedOffsets(ix, pds, k + 1)
  }

  /** Every directive of every chunk is declared after `bound`. */
  ghost predicate ChunksAbove(c: seq<seq<UsingDirective>>, bound: int) {
    forall m, d: UsingDirective :: 0 <= m < |c| && d in c[m] ==> d.pointOfDeclaration > bound
  }

  /** A slice of directives that all lie after `bound`. */
  lemma SliceAbove(uds: seq<UsingDirective>, udx: nat, j: nat, bound: int)
    requires udx <= j <= |uds|
    requires forall a :: udx <= a < |uds| ==> uds[a].pointOfDeclaration > bound
    ensures forall d :: d in uds[udx..j] ==> d.pointOfDeclaration > bound
  {
    forall d | d in uds[udx..j]
      ensures d.pointOfDeclaration > bound
    {
      var a :| 0 <= a < j - udx && uds[udx..j][a] == d;
      assert uds[udx + a] == d;
    }
  }

  lemma ChunksAboveCons(x: seq<UsingDirective>, rest: seq<seq<UsingDirective>>, bound: int)
    requires forall d :: d in x ==> d.pointOfDeclaration > bound
    requires ChunksAbove(rest, bound)
    ensures ChunksAbove([x] + rest, bound)
  {
    var c := [x] + rest;
    forall m, d: UsingDirective | 0 <= m < |c| && d in c[m]
      ensures d.pointOfDeclaration > bound
    {
      if m > 0 {
        assert c[m] == rest[m - 1];
      }
    }
  }

  /** A bound met by every not-yet-flushed directive is met by every directive of every chunk. */
  lemma {:induction false} UsingChunksAbove(ix: Index, uds: seq<UsingDirective>, pds: seq<Directive>,
                                            k: nat, udx: nat, bound: int)
    requires k <= |pds| && udx <= |uds|
    requires forall a :: udx <= a < |uds| ==> uds[a].pointOfDeclaration > bound
    ensures ChunksAbove(UsingChunks(ix, uds, pds, k, udx), bound)
    decreases |pds| - k
  {
    if k == |pds| {
      SliceAbove(uds, udx, |uds|, bound);
      ChunksAboveCons(uds[udx..], [], bound);
      assert [uds[udx..]] + [] == UsingChunks(ix, uds, pds, k, udx);
    } else {
      match pds[k]
      case MacroDef(_) =>
        UsingChunksAbove(ix, uds, pds, k + 1, udx, bound);
      case Include(e) =>
        if Resolve(ix, e).Some? {
          var j := Advance(uds, udx, e.nameOffset);
          UsingChunksAbove(ix, uds, pds, k + 1, j, bound);
          SliceAbove(uds, udx, j, bound);
          ChunksAboveCons(uds[udx..j], UsingChunks(ix, uds, pds, k + 1, j), bound);
        } else {
          UsingChunksAbove(ix, uds, pds, k + 1, udx, bound);
        }
    }
  }

  /**
   With the using directives sorted by point of declaration, the i-th chunk,
   which the walk emits just before the nested output of the i-th resolved
   include, holds only directives declared at or before that include's name
   offset, and every later chunk only directives declared after it.
   */
  lemma {:induction false} UsingChunksRespectOffsets(ix: Index, uds: seq<UsingDirective>, pds: seq<Directive>,
                                                     k: nat, udx: nat)
    requires k <= |pds| && udx <= |uds| && SortedByDeclaration(uds)
    ensures var c := UsingChunks(ix, uds, pds, k, udx);
      var o := ResolvedOffsets(ix, pds, k);
      && |c| == |o| + 1
      && (forall i, d :: 0 <= i < |o| && d in c[i] ==> d.pointOfDeclaration <= o[i])
      && (forall i, m, d :: 0 <= i < m < |c| && d in c[m] ==> d.pointOfDeclaration > o[i])
    decreases |pds| - k
  {
    if k < |pds| {
      match pds[k]
      case MacroDef(_) => UsingChunksRespectOffsets(ix, uds, pds, k + 1, udx);
      case Include(e) =>
        if Resolve(ix, e).Some? {
          var j := Advance(uds, udx, e.nameOffset);
          UsingChunksRespectOffsets(ix, uds, pds, k + 1, j);
          AdvanceFlushesAllEarlier(uds, udx, e.nameOffset);
          UsingChunksAbove(ix, uds, pds, k + 1, j, e.nameOffset);
          SliceAtMost(uds, udx, j, e.nameOffset);
          OffsetsCons(uds[udx..j], UsingChunks(ix, uds, pds, k + 1, j), e.nameOffset, ResolvedOffsets(ix, pds, k + 1));
        } else {
          UsingChunksRespectOffsets(ix, uds, pds, k + 1, udx);
        }
    }
  }

  /** The directives flushed at an include are declared at or before its name offset. */
  lemma SliceAtMost(uds: seq<UsingDirective>, udx: nat, j: nat, bound: int)
    requires udx <= j <= |uds|
    requires forall a :: udx <= a < j ==> uds[a].pointOfDeclaration <= bound
    ensures forall d :: d in uds[udx..j] ==> d.pointOfDeclaration <= bound
  {
    forall d | d in uds[udx..j]
      ensures d.pointOfDeclaration <= bound
    {
      var a :| 0 <= a < j - udx && uds[udx..j][a] == d;
      assert uds[udx + a] == d;
    }
  }

  /** One more chunk and offset in front keep the offset rule. */
  lemma OffsetsCons(x: seq<UsingDirective>, rest: seq<seq<UsingDirective>>, e: int, ro: seq<int>)
    requires |rest| == |ro| + 1
    requires forall d :: d in x ==> d.pointOfDeclaration <= e
    requires ChunksAbove(rest, e)
    requires forall i, d :: 0 <= i < |ro| && d in rest[i] ==> d.pointOfDeclaration <= ro[i]
    requires forall i, m, d :: 0 <= i < m < |rest| && d in rest[m] ==> d.pointOfDeclaration > ro[i]
    ensures var c := [x] + rest;
      var o := [e] + ro;
      && (forall i, d :: 0 <= i < |o| && d in c[i] ==> d.pointOfDeclaration <= o[i])
      && (forall i, m, d :: 0 <= i < m < |c| && d in c[m] ==> d.pointOfDeclaration > o[i])
  {
    var c := [x] + rest;
    var o := [e] + ro;
    forall i, d: UsingDirective | 0 <= i < |o| && d in c[i]
      ensures d.pointOfDeclaration <= o[i]
    {
      if i > 0 {
        assert c[i] == rest[i - 1] && o[i] == ro[i - 1];
      }
    }
    forall i, m, d: UsingDirective | 0 <= i < m < |c| && d in c[m]
      ensures d.pointOfDeclaration > o[i]
    {
      assert c[m] == rest[m - 1];
      if i > 0 {
        assert o[i] == ro[i - 1];
      }
    }
  }

  /** The chunks joined end to end. */
  function Concat<T>(c: seq<seq<T>>): (s: seq<T>) {
    if |c| == 0 then [] else c[0] + Concat(c[1..])
  }

  /** `chunks[0]`, then `gaps[0]`, then `chunks[1]`, and so on, ending with the last chunk. */
  function Interleave<T>(chunks: seq<seq<T>>, gaps: seq<seq<T>>): (s: seq<T>)
    requires |chunks| == |gaps| + 1
    decreases |gaps|
  {
    if |gaps| == 0 then chunks[0] else chunks[0] + gaps[0] + Interleave(chunks[1..], gaps[1..])
  }

  /**
   The using directives that the nested call of each resolved include appends,
   in list order, for the walk of `pds` from position `k`, up to the first
   nested call that does not return `false`.
   */
  function NestedUsing(env: Env, uds: seq<UsingDirective>, pds: seq<Directive>, k: nat, udx: nat,
                       stopAt: Option<VariantId>, session: Session, acc: Acc, guard: set<VariantId>)
    : (gaps: seq<seq<UsingDirective>>)
    requires k <= |pds| && udx <= |uds|
    decreases |pds| - k
  {
    if k == |pds| then []
    else
      match pds[k]
      case MacroDef(m) =>
        NestedUsing(env, uds, pds, k + 1, udx, stopAt, session, acc.(macros := acc.macros + [m]), guard)
      case Include(e) =>
        match Resolve(env.index, e)
        case None => NestedUsing(env, uds, pds, k + 1, udx, stopAt, session, acc, guard)
        case Some(t) =>
          var j := Advance(uds, udx, e.nameOffset);
          var acc1 := acc.(usingDirectives := acc.usingDirectives + uds[udx..j]);
          var n := Collect(env, t, stopAt, session, acc1, Some(guard));
          if n.outcome != Continue then []
          else [n.acc.usingDirectives[|acc1.usingDirectives|..]]
               + NestedUsing(env, uds, pds, k + 1, j, stopAt, session, n.acc, n.guard)
  }

  /** The macros that the nested call of each resolved include appends, in list order. */
  function NestedMacros(env: Env, uds: seq<UsingDirective>, pds: seq<Directive>, k: nat, udx: nat,
                        stopAt: Option<VariantId>, session: Session, acc: Acc, guard: set<VariantId>)
    : (gaps: seq<seq<Macro>>)
    requires k <= |pds| && udx <= |uds|
    decreases |pds| - k
  {
    if k == |pds| then []
    else
      match pds[k]
      case MacroDef(m) =>
        NestedMacros(env, uds, pds, k + 1, udx, stopAt, session, acc.(macros := acc.macros + [m]), guard)
      case Include(e) =>
        match Resolve(env.index, e)
        case None => NestedMacros(env, uds, pds, k + 1, udx, stopAt, session, acc, guard)
        case Some(t) =>
          var j := Advance(uds, udx, e.nameOffset);
          var acc1 := acc.(usingDirectives := acc.usingDirectives + uds[udx..j]);
          var n := Collect(env, t, stopAt, session, acc1, Some(guard));
          if n.outcome != Continue then []
          else [n.acc.macros[|acc1.macros|..]]
               + NestedMacros(env, uds, pds, k + 1, j, stopAt, session, n.acc, n.guard)
  }

  /** Every using directive of the file is in exactly one chunk, in the original order. */
  lemma {:induction false} UsingChunksCover(ix: Index, uds: seq<UsingDirective>, pds: seq<Directive>,
                                            k: nat, udx: nat)
    requires k <= |pds| && udx <= |uds|
    ensures Concat(UsingChunks(ix, uds, pds, k, udx)) == uds[udx..]
    ensures |UsingChunks(ix, uds, pds, k, udx)| == 1 + ResolvedFrom(ix, pds, k)
    decreases |pds| - k
  {
    if k < |pds| {
      match pds[k]
      case MacroDef(_) => UsingChunksCover(ix, uds, pds, k + 1, udx);
      case Include(e) =>
        if Resolve(ix, e).Some? {
          var j := Advance(uds, udx, e.nameOffset);
          UsingChunksCover(ix, uds, pds, k + 1, j);
          var c := [uds[udx..j]] + UsingChunks(ix, uds, pds, k + 1, j);
          assert c[1..] == UsingChunks(ix, uds, pds, k + 1, j);
          assert uds[udx..j] + uds[j..] == uds[udx..];
        } else {
          UsingChunksCover(ix, uds, pds, k + 1, udx);
        }
    }
  }

  /** Every macro of the list is in exactly one chunk, in source order. */
  lemma {:induction false} MacroChunksCover(ix: Index, pds: seq<Directive>, k: nat)
    requires k <= |pds|
    ensures Concat(MacroChunks(ix, pds, k)) == MacrosFrom(pds, k)
    decreases |pds| - k
  {
    if k < |pds| {
      MacroChunksCover(ix, pds, k + 1);
      var rest := MacroChunks(ix, pds, k + 1);
      if pds[k].MacroDef? {
        MacroJoinsFirstChunk(pds[k].macro, rest);
      } else if Resolve(ix, pds[k].edge).Some? {
        ConcatCons([], rest);
      }
    }
  }

  /** A macro put in front of the first chunk is in front of the joined chunks. */
  lemma MacroJoinsFirstChunk<T>(m: T, rest: seq<seq<T>>)
    requires |rest| >= 1
    ensures Concat([[m] + rest[0]] + rest[1..]) == [m] + Concat(rest)
  {
    ConcatCons([m] + rest[0], rest[1..]);
  }

  lemma ConcatCons<T>(x: seq<T>, r: seq<seq<T>>)
    ensures Concat([x] + r) == x + Concat(r)
  {
    assert ([x] + r)[1..] == r;
  }

  /** A list grown in three steps interleaves its first step and its second step before the rest. */
  lemma InterleaveStep<T>(a: seq<T>, b: seq<T>, c: seq<T>, d: seq<T>, chunks: seq<seq<T>>, gaps: seq<seq<T>>)
    requires a <= b <= c <= d && |chunks| == |gaps| + 1 && d[|c|..] == Interleave(chunks, gaps)
    ensures d[|a|..] == Interleave([b[|a|..]] + chunks, [c[|b|..]] + gaps)
  {
    SplitTail(a, b, d);
    SplitTail(b, c, d);
    assert ([b[|a|..]] + chunks)[1..] == chunks;
    assert ([c[|b|..]] + gaps)[1..] == gaps;
  }

  /** A macro in front of the first chunk is a macro in front of the whole interleaving. */
  lemma InterleavePrepend<T>(x: T, chunks: seq<seq<T>>, gaps: seq<seq<T>>)
    requires |chunks| == |gaps| + 1
    ensures Interleave([[x] + chunks[0]] + chunks[1..], gaps) == [x] + Interleave(chunks, gaps)
  {
    var c := [[x] + chunks[0]] + chunks[1..];
    assert c[1..] == chunks[1..];
  }

  /**
   A walk of the list that ends normally appends exactly the file's own chunks
   interleaved with the nested calls' output: chunk 0, the output of the nested
   call for the first resolved include, chunk 1, and so on.
   */
  lemma {:induction false} CollectListInterleaves(env: Env, uds: seq<UsingDirective>, pds: seq<Directive>,
                                                  k: nat, udx: nat, stopAt: Option<VariantId>,
                                                  session: Session, acc: Acc, guard: set<VariantId>)
    requires k <= |pds| && udx <= |uds|
    ensures ListInterleaves(env, uds, pds, k, udx, stopAt, session, acc, guard)
    decreases |pds| - k
  {
    if k == |pds| {
      var w := CollectList(env, uds, pds, k, udx, stopAt, session, acc, guard);
      assert w.acc.usingDirectives[|acc.usingDirectives|..] == uds[udx..];
      assert w.acc.macros[|acc.macros|..] == [];
    } else {
      match pds[k]
      case MacroDef(m) =>
        var acc1 := acc.(macros := acc.macros + [m]);
        CollectListInterleaves(env, uds, pds, k + 1, udx, stopAt, session, acc1, guard);
        MacroStepInterleaves(env, uds, pds, k, udx, stopAt, session, acc, guard);
      case Include(e) =>
        match Resolve(env.index, e)
        case None =>
          CollectListInterleaves(env, uds, pds, k + 1, udx, stopAt, session, acc, guard);
          assert CollectList(env, uds, pds, k, udx, stopAt, session, acc, guard)
              == CollectList(env, uds, pds, k + 1, udx, stopAt, session, acc, guard);
        case Some(t) =>
          var j := Advance(uds, udx, e.nameOffset);
          var acc1 := acc.(usingDirectives := acc.usingDirectives + uds[udx..j]);
          var n := Collect(env, t, stopAt, session, acc1, Some(guard));
          if n.outcome == Continue {
            CollectListInterleaves(env, uds, pds, k + 1, j, stopAt, session, n.acc, n.guard);
          }
          IncludeStepInterleaves(env, uds, pds, k, udx, stopAt, session, acc, guard);
    }
  }

  /**
   What `CollectListInterleaves` states: a walk of the list from `k` that ends
   normally appends the file's own chunks interleaved with the nested calls' output.
   */
  ghost predicate ListInterleaves(env: Env, uds: seq<UsingDirective>, pds: seq<Directive>,
                                  k: nat, udx: nat, stopAt: Option<VariantId>,
                                  session: Session, acc: Acc, guard: set<VariantId>)
    requires k <= |pds| && udx <= |uds|
  {
    var w := CollectList(env, uds, pds, k, udx, stopAt, session, acc, guard);
    var nu := NestedUsing(env, uds, pds, k, udx, stopAt, session, acc, guard);
    var nm := NestedMacros(env, uds, pds, k, udx, stopAt, session, acc, guard);
    w.outcome == Continue ==>
      && |nu| == ResolvedFrom(env.index, pds, k) && |nm| == ResolvedFrom(env.index, pds, k)
      && w.acc.usingDirectives[|acc.usingDirectives|..] == Interleave(UsingChunks(env.index, uds, pds, k, udx), nu)
      && w.acc.macros[|acc.macros|..] == Interleave(MacroChunks(env.index, pds, k), nm)
  }

  /** A macro at position `k` joins the front of the first macro chunk. */
  lemma MacroStepInterleaves(env: Env, uds: seq<UsingDirective>, pds: seq<Directive>,
                             k: nat, udx: nat, stopAt: Option<VariantId>,
                             session: Session, acc: Acc, guard: set<VariantId>)
    requires k < |pds| && udx <= |uds| && pds[k].MacroDef?
    requires ListInterleaves(env, uds, pds, k + 1, udx, stopAt, session, acc.(macros := acc.macros + [pds[k].macro]), guard)
    ensures ListInterleaves(env, uds, pds, k, udx, stopAt, session, acc, guard)
  {
    var m := pds[k].macro;
    var acc1 := acc.(macros := acc.macros + [m]);
    var w := CollectList(env, uds, pds, k + 1, udx, stopAt, session, acc1, guard);
    assert CollectList(env, uds, pds, k, udx, stopAt, session, acc, guard) == w;
    var nu := NestedUsing(env, uds, pds, k + 1, udx, stopAt, session, acc1, guard);
    var nm := NestedMacros(env, uds, pds, k + 1, udx, stopAt, session, acc1, guard);
    assert NestedUsing(env, uds, pds, k, udx, stopAt, session, acc, guard) == nu;
    assert NestedMacros(env, uds, pds, k, udx, stopAt, session, acc, guard) == nm;
    if w.outcome == Continue {
      var rest := MacroChunks(env.index, pds, k + 1);
      SplitTail(acc.macros, acc1.macros, w.acc.macros);
      assert acc1.macros[|acc.macros|..] == [m];
      InterleavePrepend(m, rest, nm);
    }
  }

  /** A resolved include at position `k` closes a chunk and places its nested call's output after it. */
  lemma IncludeStepInterleaves(env: Env, uds: seq<UsingDirective>, pds: seq<Directive>,
                               k: nat, udx: nat, stopAt: Option<VariantId>,
                               session: Session, acc: Acc, guard: set<VariantId>)
    requires k < |pds| && udx <= |uds| && pds[k].Include? && Resolve(env.index, pds[k].edge).Some?
    requires var j := Advance(uds, udx, pds[k].edge.nameOffset);
      var acc1 := acc.(usingDirectives := acc.usingDirectives + uds[udx..j]);
      var n := Collect(env, Resolve(env.index, pds[k].edge).value, stopAt, session, acc1, Some(guard));
      n.outcome == Continue ==> ListInterleaves(env, uds, pds, k + 1, j, stopAt, session, n.acc, n.guard)
    ensures ListInterleaves(env, uds, pds, k, udx, stopAt, session, acc, guard)
  {
    var e := pds[k].edge;
    var t := Resolve(env.index, e).value;
    var j := Advance(uds, udx, e.nameOffset);
    var acc1 := acc.(usingDirectives := acc.usingDirectives + uds[udx..j]);
    var n := Collect(env, t, stopAt, session, acc1, Some(guard));
    if n.outcome == Continue {
      var w := CollectList(env, uds, pds, k + 1, j, stopAt, session, n.acc, n.guard);
      assert CollectList(env, uds, pds, k, udx, stopAt, session, acc, guard) == w;
      var nu := NestedUsing(env, uds, pds, k + 1, j, stopAt, session, n.acc, n.guard);
      var nm := NestedMacros(env, uds, pds, k + 1, j, stopAt, session, n.acc, n.guard);
      assert NestedUsing(env, uds, pds, k, udx, stopAt, session, acc, guard)
          == [n.acc.usingDirectives[|acc1.usingDirectives|..]] + nu;
      assert NestedMacros(env, uds, pds, k, udx, stopAt, session, acc, guard)
          == [n.acc.macros[|acc1.macros|..]] + nm;
      assert UsingChunks(env.index, uds, pds, k, udx) == [uds[udx..j]] + UsingChunks(env.index, uds, pds, k + 1, j);
      assert MacroChunks(env.index, pds, k) == [[]] + MacroChunks(env.index, pds, k + 1);
      if w.outcome == Continue {
        assert acc1.usingDirectives[|acc.usingDirectives|..] == uds[udx..j];
        InterleaveStep(acc.usingDirectives, acc1.usingDirectives, n.acc.usingDirectives, w.acc.usingDirectives,
                       UsingChunks(env.index, uds, pds, k + 1, j), nu);
        assert acc1.macros[|acc.macros|..] == [];
        InterleaveStep(acc.macros, acc1.macros, n.acc.macros, w.acc.macros,
                       MacroChunks(env.index, pds, k + 1), nm);
      }
    }
  }

  /**
   A call that enters its file and returns `false` appends the file's own using
   directives and macros in chunks, with the output of the nested call for the
   i-th resolved include exactly between chunk i and chunk i + 1; the chunks
   flatten to all of the file's using directives and all of its macros.
   */
  lemma CollectInterleaves(env: Env, id: VariantId, stopAt: Option<VariantId>, session: Session,
                           acc: Acc, guard: Option<set<VariantId>>)
    requires id in env.index.arena
    ensures var w := Collect(env, id, stopAt, session, acc, guard);
      var v := env.index.arena[id];
      var start := Appended(v, id, Nominated(v, id, acc));
      var g := GuardSet(guard) + {id};
      Entered(env, id, stopAt, session, acc, guard) && w.outcome == Continue ==>
        && FetchContent(env, id).Content?
        && var uds := FetchContent(env, id).usingDirectives;
           var pds := FetchContent(env, id).directives;
           var nu := NestedUsing(env, uds, pds, 0, 0, stopAt, session, start, g);
           var nm := NestedMacros(env, uds, pds, 0, 0, stopAt, session, start, g);
        && |nu| == ResolvedFrom(env.index, pds, 0) && |nm| == ResolvedFrom(env.index, pds, 0)
        && w.acc.usingDirectives[|acc.usingDirectives|..] == Interleave(UsingChunks(env.index, uds, pds, 0, 0), nu)
        && w.acc.macros[|acc.macros|..] == Interleave(MacroChunks(env.index, pds, 0), nm)
        && Concat(UsingChunks(env.index, uds, pds, 0, 0)) == uds
        && Concat(MacroChunks(env.index, pds, 0)) == MacrosFrom(pds, 0)
  {
    var v := env.index.arena[id];
    if Entered(env, id, stopAt, session, acc, guard) {
      var start := Appended(v, id, Nominated(v, id, acc));
      var g := GuardSet(guard) + {id};
      match FetchContent(env, id)
      case DependsOnOutdated =>
      case Content(uds, pds) =>
        CollectListInterleaves(env, uds, pds, 0, 0, stopAt, session, start, g);
        var l := CollectList(env, uds, pds, 0, 0, stopAt, session, start, g);
        assert Collect(env, id, stopAt, session, acc, guard).acc == l.acc;
        UsingChunksCover(env.index, uds, pds, 0, 0);
        MacroChunksCover(env.index, pds, 0);
        assert uds[0..] == uds;
    }
  }

  /**
   The offset rule of the walk, for a file whose using directives are sorted by
   point of declaration: the chunk placed just before the i-th nested call's
   output holds only directives declared at or before that include's name
   offset, and every chunk placed after that output only directives declared
   after it.
   */
  lemma CollectOrdersUsingDirectives(env: Env, id: VariantId, stopAt: Option<VariantId>, session: Session,
                                     acc: Acc, guard: Option<set<VariantId>>)
    requires id in env.index.arena
    ensures var w := Collect(env, id, stopAt, session, acc, guard);
      var v := env.index.arena[id];
      var start := Appended(v, id, Nominated(v, id, acc));
      var g := GuardSet(guard) + {id};
      Entered(env, id, stopAt, session, acc, guard) && w.outcome == Continue ==>
        && FetchContent(env, id).Content?
        && var uds := FetchContent(env, id).usingDirectives;
           var pds := FetchContent(env, id).directives;
           var chunks := UsingChunks(env.index, uds, pds, 0, 0);
           var nu := NestedUsing(env, uds, pds, 0, 0, stopAt, session, start, g);
           var o := ResolvedOffsets(env.index, pds, 0);
        && |nu| == |o|
        && w.acc.usingDirectives[|acc.usingDirectives|..] == Interleave(chunks, nu)
        && (SortedByDeclaration(uds) ==>
              && (forall i, d :: 0 <= i < |o| && d in chunks[i] ==> d.pointOfDeclaration <= o[i])
              && (forall i, m, d :: 0 <= i < m < |chunks| && d in chunks[m] ==> d.pointOfDeclaration > o[i]))
  {
    CollectInterleaves(env, id, stopAt, session, acc, guard);
    if Entered(env, id, stopAt, session, acc, guard) && FetchContent(env, id).Content? {
      var uds := FetchContent(env, id).usingDirectives;
      if SortedByDeclaration(uds) {
        UsingChunksRespectOffsets(env.index, uds, FetchContent(env, id).directives, 0, 0);
      }
    }
  }
}

=== FILE: walk_stop.dfy ===
/**
 The stop-at sentinel used for partial reconstruction. A walk with a stop-at
 variant that never meets it is the very walk without one. A walk that meets it
 has produced, in every list, a prefix of what the walk without it produces,
 and in the files that prefix is everything the full walk appends before the
 target: the full walk appends the target right after it, or never.
 */
module WalkStop {
  import opened Wrappers
  import opened IndexModel
  import opened ContentWalk
  import opened WalkGuard
  import opened WalkOnce
  import opened WalkInvariants

  lemma ExtendsTransitive(a: Acc, b: Acc, c: Acc)
    requires Extends(a, b) && Extends(b, c)
    ensures Extends(a, c)
  {
  }

  /** Something keeps `target` out of every file a nested walk appends from here on. */
  ghost predicate Held(ix: Index, target: VariantId, pending: map<Loc, VariantId>, session: Session,
                       guard: set<VariantId>)
  {
    || target !in ix.arena
    || target in guard
    || ix.arena[target].location in pending
    || Some(ix.arena[target].location) in session
  }

  /**
   `s` is a walk toward `target` and `f` the full walk from the same state. When
   `s` reports the boundary, every list of `s` is a prefix of the same list of
   `f`; if `f` appends the target after that prefix, it does so right after it;
   and if `f` ends normally without appending it, the target is held out of
   anything that follows.
   */
  ghost predicate KeepsBefore(ix: Index, target: VariantId, session: Session, guard: set<VariantId>, s: Walk, f: Walk)
  {
    s.outcome == BoundaryReached ==>
      && Extends(s.acc, f.acc)
      && (target in f.acc.files[|s.acc.files|..] ==> s.acc.files + [target] <= f.acc.files)
      && (f.outcome == Continue && target !in f.acc.files[|s.acc.files|..] ==>
            Held(ix, target, f.acc.pending, session, guard))
  }

  /**
   A call toward `target` equals the full call unless it reports the boundary,
   and then it keeps everything the full call appends before the target.
   */
  lemma {:induction false} CollectStopIsPrefix(env: Env, id: VariantId, target: VariantId, session: Session,
                                               acc: Acc, guard: Option<set<VariantId>>)
    requires id in env.index.arena
    ensures var s := Collect(env, id, Some(target), session, acc, guard);
      var f := Collect(env, id, None, session, acc, guard);
      && (s.outcome != BoundaryReached ==> s == f)
      && KeepsBefore(env.index, target, session, GuardSet(guard), s, f)
    decreases |env.index.arena.Keys - GuardSet(guard)|, 1
  {
    var v := env.index.arena[id];
    if id == target {
      TargetCallKeepsBefore(env, id, session, acc, guard);
    } else if v.location !in acc.pending {
      var acc1 := Nominated(v, id, acc);
      if !(guard.Some? && Some(v.location) in session) && id !in GuardSet(guard) {
        VisitStopIsPrefix(env, id, target, session, acc1, GuardSet(guard));
        var s := Visit(env, id, Some(target), session, acc1, GuardSet(guard));
        var f := Visit(env, id, None, session, acc1, GuardSet(guard));
        assert Collect(env, id, Some(target), session, acc, guard) == s;
        assert Collect(env, id, None, session, acc, guard) == f;
        HeldBelowOther(env.index, target, id, session, GuardSet(guard), s, f);
      }
    }
  }

  /** The call on the target itself stops at once; the full call appends the target first or is held off. */
  lemma TargetCallKeepsBefore(env: Env, id: VariantId, session: Session, acc: Acc, guard: Option<set<VariantId>>)
    requires id in env.index.arena
    ensures var s := Collect(env, id, Some(id), session, acc, guard);
      var f := Collect(env, id, None, session, acc, guard);
      KeepsBefore(env.index, id, session, GuardSet(guard), s, f)
  {
    var s := Collect(env, id, Some(id), session, acc, guard);
    var f := Collect(env, id, None, session, acc, guard);
    assert s.acc == acc;
    CollectAppendsUnclaimed(env, id, None, session, acc, guard);
    if |f.acc.files| > |acc.files| {
      assert acc.files + [id] <= f.acc.files;
    } else if f.outcome == Continue {
      assert !Entered(env, id, None, session, acc, guard);
    }
  }

  /** A file other than the target leaves the guard it was entered with as the only guard that matters. */
  lemma HeldBelowOther(ix: Index, target: VariantId, id: VariantId, session: Session, g: set<VariantId>,
                       s: Walk, f: Walk)
    requires target != id
    requires KeepsBefore(ix, target, session, g + {id}, s, f)
    ensures KeepsBefore(ix, target, session, g, s, f)
  {
  }

  lemma {:induction false} VisitStopIsPrefix(env: Env, id: VariantId, target: VariantId, session: Session,
                                             acc: Acc, g: set<VariantId>)
    requires id in env.index.arena && id !in g
    ensures var s := Visit(env, id, Some(target), session, acc, g);
      var f := Visit(env, id, None, session, acc, g);
      && (s.outcome != BoundaryReached ==> s == f)
      && KeepsBefore(env.index, target, session, g + {id}, s, f)
    decreases |env.index.arena.Keys - g|, 0
  {
    var v := env.index.arena[id];
    var g1 := g + {id};
    GuardShrinks(env.index.arena.Keys, g, id);
    match FetchContent(env, id)
    case DependsOnOutdated =>
    case Content(uds, pds) =>
      var acc1 := Appended(v, id, acc);
      CollectListStopIsPrefix(env, uds, pds, 0, 0, target, session, acc1, g1);
      var s := CollectList(env, uds, pds, 0, 0, Some(target), session, acc1, g1);
      var f := CollectList(env, uds, pds, 0, 0, None, session, acc1, g1);
      assert Visit(env, id, Some(target), session, acc, g).acc == s.acc;
      assert Visit(env, id, None, session, acc, g).acc == f.acc;
  }

  lemma {:induction false} CollectListStopIsPrefix(env: Env, uds: seq<UsingDirective>, pds: seq<Directive>,
                                                   k: nat, udx: nat, target: VariantId, session: Session,
                                                   acc: Acc, guard: set<VariantId>)
    requires k <= |pds| && udx <= |uds|
    ensures var s := CollectList(env, uds, pds, k, udx, Some(target), session, acc, guard);
      var f := CollectList(env, uds, pds, k, udx, None, session, acc, guard);
      && (s.outcome != BoundaryReached ==> s == f)
      && KeepsBefore(env.index, target, session, guard, s, f)
    decreases |env.index.arena.Keys - guard|, 2, |pds| - k
  {
    if k < |pds| {
      match pds[k]
      case MacroDef(m) =>
        var acc1 := acc.(macros := acc.macros + [m]);
        CollectListStopIsPrefix(env, uds, pds, k + 1, udx, target, session, acc1, guard);
        assert CollectList(env, uds, pds, k, udx, Some(target), session, acc, guard)
            == CollectList(env, uds, pds, k + 1, udx, Some(target), session, acc1, guard);
        assert CollectList(env, uds, pds, k, udx, None, session, acc, guard)
            == CollectList(env, uds, pds, k + 1, udx, None, session, acc1, guard);
      case Include(e) =>
        match Resolve(env.index, e)
        case None =>
          CollectListStopIsPrefix(env, uds, pds, k + 1, udx, target, session, acc, guard);
          assert CollectList(env, uds, pds, k, udx, Some(target), session, acc, guard)
              == CollectList(env, uds, pds, k + 1, udx, Some(target), session, acc, guard);
          assert CollectList(env, uds, pds, k, udx, None, session, acc, guard)
              == CollectList(env, uds, pds, k + 1, udx, None, session, acc, guard);
        case Some(t) =>
          var j := Advance(uds, udx, e.nameOffset);
          var acc1 := acc.(usingDirectives := acc.usingDirectives + uds[udx..j]);
          CollectStopIsPrefix(env, t, target, session, acc1, Some(guard));
          var ns := Collect(env, t, Some(target), session, acc1, Some(guard));
          if ns.outcome == Continue {
            CollectListStopIsPrefix(env, uds, pds, k + 1, j, target, session, ns.acc, ns.guard);
          }
          IncludeStepStops(env, uds, pds, k, udx, target, session, acc, guard);
    }
  }

  /**
   A resolved include whose nested call reports the boundary ends the list
   there; the full walk goes on, but nothing it appends afterwards is the target
   unless the nested full call already appended it.
   */
  lemma IncludeStepStops(env: Env, uds: seq<UsingDirective>, pds: seq<Directive>,
                         k: nat, udx: nat, target: VariantId, session: Session,
                         acc: Acc, guard: set<VariantId>)
    requires k < |pds| && udx <= |uds| && pds[k].Include? && Resolve(env.index, pds[k].edge).Some?
    requires var t := Resolve(env.index, pds[k].edge).value;
      var j := Advance(uds, udx, pds[k].edge.nameOffset);
      var acc1 := acc.(usingDirectives := acc.usingDirectives + uds[udx..j]);
      var ns := Collect(env, t, Some(target), session, acc1, Some(guard));
      var nf := Collect(env, t, None, session, acc1, Some(guard));
      && (ns.outcome != BoundaryReached ==> ns == nf)
      && KeepsBefore(env.index, target, session, guard, ns, nf)
      && (ns.outcome == Continue ==>
            var s := CollectList(env, uds, pds, k + 1, j, Some(target), session, ns.acc, ns.guard);
            var f := CollectList(env, uds, pds, k + 1, j, None, session, ns.acc, ns.guard);
            (s.outcome != BoundaryReached ==> s == f) && KeepsBefore(env.index, target, session, guard, s, f))
    ensures var s := CollectList(env, uds, pds, k, udx, Some(target), session, acc, guard);
      var f := CollectList(env, uds, pds, k, udx, None, session, acc, guard);
      && (s.outcome != BoundaryReached ==> s == f)
      && KeepsBefore(env.index, target, session, guard, s, f)
  {
    var e := pds[k].edge;
    var t := Resolve(env.index, e).value;
    var j := Advance(uds, udx, e.nameOffset);
    var acc1 := acc.(usingDirectives := acc.usingDirectives + uds[udx..j]);
    var ns := Collect(env, t, Some(target), session, acc1, Some(guard));
    var nf := Collect(env, t, None, session, acc1, Some(guard));
    var s := CollectList(env, uds, pds, k, udx, Some(target), session, acc, guard);
    var f := CollectList(env, uds, pds, k, udx, None, session, acc, guard);
    if ns.outcome == Continue {
      assert s == CollectList(env, uds, pds, k + 1, j, Some(target), session, ns.acc, ns.guard);
      assert f == CollectList(env, uds, pds, k + 1, j, None, session, ns.acc, ns.guard);
    } else {
      assert s == ns;
      if nf.outcome != Continue {
        assert f == nf;
      } else if ns.outcome == BoundaryReached {
        assert f == CollectList(env, uds, pds, k + 1, j, None, session, nf.acc, nf.guard);
        RestKeepsTargetOut(env, uds, pds, k + 1, j, target, session, guard, ns, nf);
      }
    }
  }

  /**
   After the nested call reported the boundary, the full walk of the rest of
   the list appends the target only if the nested full call appended it first.
   */
  lemma RestKeepsTargetOut(env: Env, uds: seq<UsingDirective>, pds: seq<Directive>, k: nat, udx: nat,
                           target: VariantId, session: Session, guard: set<VariantId>, ns: Walk, nf: Walk)
    requires k <= |pds| && udx <= |uds|
    requires ns.outcome == BoundaryReached && nf.outcome == Continue && nf.guard == guard
    requires KeepsBefore(env.index, target, session, guard, ns, nf)
    ensures var f := CollectList(env, uds, pds, k, udx, None, session, nf.acc, nf.guard);
      KeepsBefore(env.index, target, session, guard, ns, f)
  {
    var f := CollectList(env, uds, pds, k, udx, None, session, nf.acc, nf.guard);
    ExtendsTransitive(ns.acc, nf.acc, f.acc);
    SplitTail(ns.acc.files, nf.acc.files, f.acc.files);
    if target !in nf.acc.files[|ns.acc.files|..] {
      ListSkipsGuarded(env, uds, pds, k, udx, None, session, nf.acc, nf.guard);
      ListAppendsUnclaimed(env, uds, pds, k, udx, None, session, nf.acc, nf.guard);
      assert target !in f.acc.files[|nf.acc.files|..];
    }
  }

  /**
   A walk toward `target` that reports the boundary has produced a prefix of
   every list of the full walk from the same start, and its files are exactly
   the files the full walk appends before it first appends the target; one that
   does not report it is the full walk.
   */
  lemma StopAtIsPrefixOfFullWalk(env: Env, id: VariantId, target: VariantId, session: Session,
                                 guard: Option<set<VariantId>>)
    requires id in env.index.arena
    ensures var s := Collect(env, id, Some(target), session, EmptyAcc, guard);
      var f := Collect(env, id, None, session, EmptyAcc, guard);
      && (s.outcome != BoundaryReached ==> s == f)
      && (s.outcome == BoundaryReached ==>
            && s.acc.files <= f.acc.files
            && s.acc.macros <= f.acc.macros
            && s.acc.usingDirectives <= f.acc.usingDirectives
            && s.acc.preLoaded <= f.acc.preLoaded
            && s.acc.pending.Keys <= f.acc.pending.Keys
            && target !in s.acc.files
            && (target in f.acc.files ==> s.acc.files + [target] <= f.acc.files))
  {
    CollectStopIsPrefix(env, id, target, session, EmptyAcc, guard);
    FreshWalkInvariants(env, id, Some(target), session, guard);
    var s := Collect(env, id, Some(target), session, EmptyAcc, guard);
    var f := Collect(env, id, None, session, EmptyAcc, guard);
    if s.outcome == BoundaryReached && target in f.acc.files {
      assert f.acc.files == s.acc.files + f.acc.files[|s.acc.files|..];
    }
  }
}

=== FILE: wrappers.dfy ===
/** The nullable references of the modelled code, as a value type. */
module Wrappers {

  /** `None` stands for a Java `null`. */
  datatype Option<+T> = None | Some(value: T)
}
